=== FILE: README.md ===
# Command manual generator — a Dafny model

The program builds a small manual for each shell command listed in an input
file, one command per line. For every command it asks the host for:

- a description: the man page's DESCRIPTION paragraph, else the second line
  of `--help`, else a placeholder;
- a version: from `--version`, `-v`, the man page's `Version` line, or the
  shell's own version;
- up to five related commands, from `man -k`.

It adds three fields that depend on the name alone: an example, a
documentation link and recommended commands. The seven-field record is
written to `manuals_folder/<cmd>_manual.xml`. A verifier later rebuilds
every record and reports, field by field, what changed since it was
written. The interface shows one field of a stored record, or every field after the name.

The model covers the command-manual logic in `ProjectFiles/logic.py`:

- `Results`: `Option` and `Result`.
- `PyText`: the Python string operations the program relies on:
  - `str.isspace`, `strip`;
  - `split(sep)`, `split(sep, maxsplit)`, `split()`, `join`;
  - `startswith`;
  - line iteration over a text file.
- `Probe`: the description, version and related-commands chains.
  - Every subprocess call is a field of a `Host` value. The field is
    `Some(output)` when the command exits normally and `None` when
    `CalledProcessError` is raised.
  - `Host.installed` says whether the command itself can be run.
  - An exception that escapes a chain is an `Err(ProbeError)`.
- `Manual`: the static tables, the record with its fixed key order, and
  `generate_manual`.
- `Storage`:
  - the manuals folder, as a map from command name to record plus a flag
    saying whether the folder exists;
  - `create_xml` and `read_existing_content` over that store;
  - `read_commands_from_file`, which takes the file's content (or `None`
    when the file is missing);
  - `generate_manuals`, where `probe` gives the host's answers for each
    command.
- `Verifier`: `compare_content`, `verify_manuals`, `get_info_for_selection`,
  and a comparison that runs on values parsed back from the XML file.

## Model

| member | source | states |
|---|---|---|
| PyText.StripSpec | ProjectFiles/logic.py:90 | `strip()` removes exactly a whitespace prefix and a whitespace suffix: the result is a slice of the input with no whitespace at either end |
| PyText.StripEmptyIff | ProjectFiles/logic.py:73 | a line strips to the empty string exactly when every character is whitespace (the blank-line test) |
| PyText.StripUnique | ProjectFiles/logic.py:88-90 | wrapping already-trimmed text in whitespace and stripping gives the text back |
| PyText.JoinSplit | ProjectFiles/logic.py:70 | joining the pieces of `split(c)` with `c` gives the original text |
| PyText.SplitJoin | ProjectFiles/logic.py:155 | splitting a join of separator-free pieces on the separator gives the pieces back |
| PyText.JoinSplitMax | ProjectFiles/logic.py:96 | joining the pieces of `split(c, n)` with `c` gives the original text |
| PyText.SplitMaxAgrees | ProjectFiles/logic.py:114 | below the split limit, `split(c, n)` has the same pieces as the unbounded `split(c)` |
| PyText.Words | ProjectFiles/logic.py:152 | `split()` yields non-empty, whitespace-free words, and none exactly when the line is all whitespace |
| PyText.WordsFirst | ProjectFiles/logic.py:152 | for a line that is not all whitespace, `split()[0]` is the maximal whitespace-free run right after the leading whitespace, and the other words are those of the text after it |
| PyText.FileLines | ProjectFiles/logic.py:14-16 | the lines a text file iterates over have no newline, and joined with newlines (plus a final newline when the content ends in one) give the content back |
| PyText.FileLinesUnlines | ProjectFiles/logic.py:14-16 | writing newline-free lines one per line and reading the file gives the same lines |
| Probe.FirstLine | ProjectFiles/logic.py:96 | `split('\n')[0]` is the longest newline-free prefix of the output |
| Probe.ScanFindsHeader | ProjectFiles/logic.py:67-78 | the man-page scan collects the lines after the first stripped `DESCRIPTION` line up to the first blank line, each followed by a newline |
| Probe.CommandDescription | ProjectFiles/logic.py:62-90 | every description returned is stripped; an exception escapes only when `man` failed, and it is never `CalledProcessError` |
| Probe.DescriptionChain | ProjectFiles/logic.py:62-90 | man succeeds: its stripped DESCRIPTION paragraph. Man fails and the command is missing: `FileNotFoundError`. `--help` succeeds: `IndexError` exactly when its output has no newline, otherwise the stripped second line. Both fail: the stripped placeholder |
| Probe.SecondLine | ProjectFiles/logic.py:85 | `split('\n')[1]` exists exactly when the output has a newline, and is the text between the first and second newlines |
| Probe.NoHeaderEmptyDescription | ProjectFiles/logic.py:67-80 | a man page without a DESCRIPTION line gives the empty description, with no fallback |
| Probe.SentinelDescription | ProjectFiles/logic.py:87-90 | with both sources failing, a trimmed non-empty name gets exactly `There is no description for <cmd>` |
| Probe.AfterFirstSpace | ProjectFiles/logic.py:96 | `split(' ', 1)[1]` raises `IndexError` exactly when the line has no space, and is otherwise the proper suffix after the first space |
| Probe.FlagVersionMeaning | ProjectFiles/logic.py:95-96 | a version flag's answer is the stripped text after the first space of its first line, or `IndexError` when that line has no space |
| Probe.BashVersion | ProjectFiles/logic.py:113-114 | the shell fallback is `As the BASH version: ` followed by the first line of the fourth space-separated field; `IndexError` exactly when there are fewer than four fields |
| Probe.VersionHistory | ProjectFiles/logic.py:92-116 | every version returned is stripped; `FileNotFoundError` exactly when the command is not installed; `CalledProcessError` only when the shell's own version call failed |
| Probe.ManVersionLine | ProjectFiles/logic.py:106-111 | the man-page step takes the first line that starts with `Version`; there is none exactly when `man` failed or no line starts with `Version`, which is when the chain falls through to the shell |
| Probe.VersionChain | ProjectFiles/logic.py:92-116 | missing command: `FileNotFoundError`. Otherwise `--version`, then `-v`, then the first man-page line starting with `Version`, then the shell version, each stripped; `CalledProcessError` when the shell call fails too |
| Probe.VersionChainOrder | ProjectFiles/logic.py:93-111 | a later source matters only when every earlier one failed: hosts that agree on the deciding answer get the same version |
| Probe.FirstWords | ProjectFiles/logic.py:150-152 | at most one name per line of `man -k` output |
| Probe.FirstWordsCons | ProjectFiles/logic.py:150-152 | a line in front adds `line.split()[0]` ahead of the rest's names when `line.strip()` is non-empty, and nothing when it is empty |
| Probe.FirstWordsConcat | ProjectFiles/logic.py:150-152 | the names of two outputs placed one after the other are the names of the first, then those of the second |
| Probe.FirstWordsSpec | ProjectFiles/logic.py:150-152 | no name comes out exactly when every line strips to the empty string |
| Probe.FirstWordsAreNames | ProjectFiles/logic.py:152 | every name is non-empty and free of whitespace |
| Probe.RelatedCommands | ProjectFiles/logic.py:144-160 | a successful `man -k` never yields a space in the field: names are whitespace-free and tab-joined |
| Probe.RelatedCommandsMeaning | ProjectFiles/logic.py:144-160 | a failed `man -k` gives the placeholder and is the only way to get a space. Otherwise the field is empty exactly when no line is non-blank, and else splits on tabs into the first one to five names in output order |
| Manual.FieldsShape | ProjectFiles/logic.py:52-60 | the record has seven keys, `CommandName` first, every field among them, key names pairwise distinct |
| Manual.SameFields | ProjectFiles/logic.py:52-60 | two records are equal exactly when they agree on every key |
| Manual.ExamplePlaceholderIff | ProjectFiles/logic.py:118-142 | the example is `No example available for <cmd>` exactly when the command is not in the table |
| Manual.RecommendationPlaceholderIff | ProjectFiles/logic.py:166-197 | the recommendation is `No specific recommendations for '<cmd>'` exactly when the command is not in the table |
| Manual.DocLinkInverse | ProjectFiles/logic.py:162-164 | the link starts with `https://linux.die.net/man/1/`, the rest is the command name, and different commands get different links |
| Manual.AssembleOutcome | ProjectFiles/logic.py:44-60 | a record is built exactly when description and version both succeed; a description exception comes first |
| Manual.GenerateManual | ProjectFiles/logic.py:44-60 | a built record carries the command's name and stripped description and version; `CalledProcessError` escapes only when the shell's version call failed |
| Manual.GenerateManualOutcome | ProjectFiles/logic.py:44-46 | `generate_manual` returns a record exactly when both chains succeed; otherwise the description's exception, or else the version's |
| Manual.NotInstalledFails | ProjectFiles/logic.py:92-98 | a command that is not installed never gets a record: the version step raises `FileNotFoundError` |
| Manual.GenerateManualFields | ProjectFiles/logic.py:52-57 | a built record is named after the command and holds the probed description, version and related commands |
| Manual.GenerateManualStatic | ProjectFiles/logic.py:56-59 | a built record's example and recommendation are placeholders exactly for commands outside the tables, and its link gives the name back |
| Storage.Save | ProjectFiles/logic.py:205-226 | after saving, the folder exists, the record reads back under its name, and every other name reads as before |
| Storage.SaveOverwrites | ProjectFiles/logic.py:220-226 | saving twice under one name keeps only the second record |
| Storage.SaveExisting | ProjectFiles/logic.py:220-226 | saving a record the folder already holds changes nothing |
| Storage.ManualPathShape | ProjectFiles/logic.py:220 | the file path is `manuals_folder/<cmd>_manual.xml`, or `<cmd>_manual.xml` alone when the name starts with `/` |
| Storage.ManualPathInjective | ProjectFiles/logic.py:220 | different commands get different path strings (not necessarily different files: see Left out) |
| Storage.ReadExistingMeaning | ProjectFiles/logic.py:253-277 | a saved record is found; a read succeeds exactly when the folder exists and holds the name; a miss reports `<path> not found`, with `manuals_folder/` in front for a name not starting with `/` |
| Storage.ReadCommands | ProjectFiles/logic.py:11-20 | an error exactly when the file is missing; otherwise one command per line of the file, each with no whitespace at either end |
| Storage.ReadCommandsMeaning | ProjectFiles/logic.py:11-20 | a missing file gives `File not found: <file>`; otherwise one trimmed command per line, in order, with nothing dropped |
| Storage.ReadCommandsRoundTrip | ProjectFiles/logic.py:11-20 | a file written from trimmed, newline-free names reads back as exactly those names |
| Storage.GenerateAllFinishes | ProjectFiles/logic.py:29-36 | the generation loop finishes exactly when every command's record can be built |
| Storage.GenerateAllStores | ProjectFiles/logic.py:29-34 | after the loop, every listed command reads back as its record, the folder exists when some command was listed, and other names read as before |
| Storage.GenerateAllStops | ProjectFiles/logic.py:29-34 | an exception at the k-th command leaves the store the first k commands produce and reports that exception |
| Storage.GenerateAllFixed | ProjectFiles/logic.py:29-34 | a loop over records the folder already holds leaves it unchanged |
| Storage.RegenerateIdempotent | ProjectFiles/logic.py:22-36 | running generation again on the same input, with the same host answers, leaves the folder exactly as the first run did |
| Verifier.Changed | ProjectFiles/logic.py:287-291 | a key is listed exactly when the two records differ on it |
| Verifier.ChangedInOrder | ProjectFiles/logic.py:287-295 | the changed keys appear in the order the keys are compared, as a subsequence of that order |
| Verifier.ChangedDistinct | ProjectFiles/logic.py:287-295 | no changed key is listed twice when the compared keys are distinct |
| Verifier.CompareFieldsBlocks | ProjectFiles/logic.py:285-296 | the comparison loop appends one block per changed key, in key order, and raises its flag exactly when some key changed |
| Verifier.NothingChangedIff | ProjectFiles/logic.py:287-297 | no key changed exactly when the records are equal |
| Verifier.CompareContentMeaning | ProjectFiles/logic.py:279-300 | a not-found message passes through. Otherwise the report is the header, then the changed-key blocks, then `verified successfully` exactly when nothing changed |
| Verifier.VerifiedIff | ProjectFiles/logic.py:285-300 | the report is `\n<name>: verified successfully` exactly when the stored and rebuilt records are equal |
| Verifier.SingleFieldDrift | ProjectFiles/logic.py:291-295 | when exactly one key differs, the report is the header and that key's block showing both values |
| Verifier.AsWrittenSelfVerifiedIff | ProjectFiles/logic.py:213-300 | on the values parsed back from the file, a record compared with itself is verified exactly when none of its fields is empty |
| Verifier.HeaderlessManPageDrifts | ProjectFiles/logic.py:266-296 | on parsed-back values, a freshly generated record for a man page without DESCRIPTION is reported as changed |
| Verifier.VerifyManualsMeaning | ProjectFiles/logic.py:234-251 | without the folder the answer is the single line `manuals are not generated *_*`. Otherwise it completes exactly when every record can be rebuilt, with one report per command in order |
| Verifier.VerifyEachMeaning | ProjectFiles/logic.py:241-251 | the loop completes exactly when every record can be rebuilt, and yields each command's comparison in order |
| Verifier.GenerateThenVerify | ProjectFiles/logic.py:234-251 | after a completed generation, verifying the same commands with the same host answers reports every one as verified |
| Verifier.PwdScenario | ProjectFiles/logic.py:11-36 | the input file `pwd` produces the `pwd` record with its table example and link, and verifying it gives `\npwd: verified successfully` (in the corrected store, where an empty field reads back as the empty string; see Findings) |
| Verifier.InfoPathAgrees | ProjectFiles/logic.py:305 | for a name not starting with `/`, the selection lookup reads the same file `create_xml` wrote |
| Verifier.SingleSelectionShows | ProjectFiles/logic.py:334-350 | each single-field selection prints its title and that field of the stored record |
| Verifier.AllInfoEntries | ProjectFiles/logic.py:326-332 | the full listing is the six fields after the name, in key order, each as `<key>: <value>` and a blank line |
| Verifier.ShowAllEntries | ProjectFiles/logic.py:326-332 | for a stored record, the `Show All Info` selection answers with exactly that listing: `<key>: <value>` and a blank line for each of the six fields after the name, in key order |
| Verifier.SelectionMissing | ProjectFiles/logic.py:355-356 | without a stored record every selection answers `File not found: manuals_folder/<cmd>_manual.xml` |
| Verifier.InvalidSelection | ProjectFiles/logic.py:352-353 | an unknown selection answers `Invalid selection: <selection>` |
| Verifier.SelectionValidIff | ProjectFiles/logic.py:326-353 | for a stored record, the answer starts with `Invalid selection: ` exactly when the selection is not one of the seven labels |

## Left out

- `ProjectFiles/GUI.py`, the tkinter interface, is not part of this model.
- Running subprocesses, the file system and the clock are not modelled. Each command's answers are a `Host` value, and one `probe` function fixes them for a whole run. The two `man <cmd>` calls (description and version) are assumed to give the same answer.
- The XML text is not modelled beyond how an empty field reads back. The store holds the record itself, so `Storage.Save` and the rest of the model follow the corrected behaviour described under Findings. Other XML normalisations are not modelled either: a carriage return read back as a newline, or characters XML forbids making the parse fail.
- Malformed or hand-edited manual files are not modelled: no `CommandManual` element, or a missing child element, which raise `KeyError` or `AttributeError`.
- `FileNotFoundError` for `man` or `bash` themselves is not modelled; both are assumed installed.
- `verify_manuals` takes the folder path as a parameter. The model uses `manuals_folder`, the folder `create_xml` writes.
- The store is keyed by command name, and `Storage.Save` always succeeds. Names with `/` in them are not modelled as the file system treats them:
  - Two different names can reach one file (`a` and `./a` both write `manuals_folder/a_manual.xml`). The program then overwrites the first record, and verifying the first name reports a change.
  - A name such as `a/b` needs a subdirectory that does not exist, so `open` raises `FileNotFoundError`.
  - A name starting with `/` makes `create_xml` and `get_info_for_selection` use different paths (see `Storage.ManualPathShape`, `Storage.ReadExistingMeaning` and `Verifier.InfoPathAgrees`).
  - `Storage.GenerateAllStores`, `Verifier.GenerateThenVerify` and `Storage.ManualPathInjective` are stated for names as distinct strings, not as distinct files.
- Universal-newline translation is not modelled as a step. The input file is read in text mode, and the subprocess calls use `text=True` (lines 65, 83, 95, 101, 107, 114, 147). Both turn `\r\n` and `\r` into `\n`. The `Host` strings and the file content given to `Storage.ReadCommands` are the text after that translation, and lines are split on `\n` only.
- The fallbacks and messages behave as follows; the model follows the code:
  - A man page without a DESCRIPTION line gives the empty description, not a fallback.
  - A successful `man -k` with no non-blank line gives the empty field, not the placeholder.
  - The description placeholder goes through `strip()` with the rest of the description (line 90). The related-commands, example and recommendation answers, placeholders included, are not stripped.
  - A missing record is reported as `<path> not found`; the `manuals are not generated` line appears only when the whole folder is missing.

## Findings

| source | as written | input that shows it | evidently intended | confidence | as-written member | corrected member |
|---|---|---|---|---|---|---|
| ProjectFiles/logic.py:213-291 | `create_xml` writes an empty field as an empty element; `read_existing_content` reads its text back as `None`; `compare_content` then finds `None != ""` and reports the field as changed, printing `Existing Content: None` | a command whose man page has no DESCRIPTION line: its description is `""`, and verifying right after generating reports `CommandDescription: Content has changed` | a record that was just generated verifies successfully | not executed; medium (depends on ElementTree writing `""` as an empty element) | Verifier.AsWrittenSelfVerifiedIff, Verifier.HeaderlessManPageDrifts | Verifier.VerifiedIff, Verifier.GenerateThenVerify, Verifier.PwdScenario |

=== FILE: manual.dfy ===
/**
 The manual record builder: one command's seven-field record, assembled
 from the probe's answers, two static tables and a documentation URL.
 */
module Manual {
  import opened Results
  import opened PyText
  import opened Probe

  /** A command's manual; the fields are listed in the order they are written, read and compared. */
  datatype Manual = Manual(
    name: string,
    description: string,
    version: string,
    example: string,
    related: string,
    docLink: string,
    recommended: string
  )

  /** The record's keys. */
  datatype Field =
    | NameField | DescriptionField | VersionField | ExampleField
    | RelatedField | LinkField | RecommendedField

  /** The key under which each field is stored and reported. */
  function KeyName(f: Field): string {
    match f
    case NameField => "CommandName"
    case DescriptionField => "CommandDescription"
    case VersionField => "VersionHistory"
    case ExampleField => "Example"
    case RelatedField => "RelatedCommands"
    case LinkField => "OnlineDocumentationLinks"
    case RecommendedField => "RecommendedCommands"
  }

  /** The keys in the record's fixed order. */
  const Fields: seq<Field> := [
    NameField, DescriptionField, VersionField, ExampleField,
    RelatedField, LinkField, RecommendedField
  ]

  /** The keys a record carries, in order: every record carries all seven. */
  function Keys(m: Manual): seq<Field> {
    Fields
  }

  function Get(m: Manual, f: Field): string {
    match f
    case NameField => m.name
    case DescriptionField => m.description
    case VersionField => m.version
    case ExampleField => m.example
    case RelatedField => m.related
    case LinkField => m.docLink
    case RecommendedField => m.recommended
  }

  /** Seven keys, each once, with pairwise distinct names, `CommandName` first. */
  lemma FieldsShape()
    ensures |Fields| == 7 && Fields[0] == NameField
    ensures forall f: Field :: f in Fields
    ensures forall i, j :: 0 <= i < j < |Fields| ==> KeyName(Fields[i]) != KeyName(Fields[j])
  {
    forall f: Field ensures f in Fields {
      match f
      case NameField => assert Fields[0] == f;
      case DescriptionField => assert Fields[1] == f;
      case VersionField => assert Fields[2] == f;
      case ExampleField => assert Fields[3] == f;
      case RelatedField => assert Fields[4] == f;
      case LinkField => assert Fields[5] == f;
      case RecommendedField => assert Fields[6] == f;
    }
  }

  /** Two records are equal exactly when they agree on every key. */
  lemma SameFields(a: Manual, b: Manual)
    ensures a == b <==> forall f: Field :: Get(a, f) == Get(b, f)
  {
    if forall f: Field :: Get(a, f) == Get(b, f) {
      assert Get(a, NameField) == Get(b, NameField);
      assert Get(a, DescriptionField) == Get(b, DescriptionField);
      assert Get(a, VersionField) == Get(b, VersionField);
      assert Get(a, ExampleField) == Get(b, ExampleField);
      assert Get(a, RelatedField) == Get(b, RelatedField);
      assert Get(a, LinkField) == Get(b, LinkField);
      assert Get(a, RecommendedField) == Get(b, RecommendedField);
    }
  }

  // ---------------------------------------------------------------------
  // Static lookups

  const ExampleTable: map<string, string> := map[
    "wc" := "wc -l filename.txt",
    "man" := "man ls",
    "grep" := "grep 'pattern' filename.txt",
    "ls" := "ls -l",
    "pwd" := "pwd",
    "date" := "date '+%Y-%m-%d %H:%M:%S'",
    "who" := "who",
    "head" := "head -n 5 filename.txt",
    "tr" := "tr '[:lower:]' '[:upper:]' < filename.txt",
    "paste" := "paste file1.txt file2.txt",
    "tail" := "tail -n 10 filename.txt",
    "sed" := "sed 's/pattern/replacement/' filename.txt",
    "printf" := "printf 'Hello, %s!\\n' 'User'",
    "touch" := "touch newfile.txt",
    "pico" := "pico filename.txt",
    "mkdir" := "mkdir new_directory",
    "cp" := "cp file1.txt file2.txt",
    "rm" := "rm filename.txt",
    "mv" := "mv oldfile.txt newfile.txt",
    "cat" := "cat filename.txt"
  ]

  const RecommendTable: map<string, seq<string>> := map[
    "ls" := ["cd", "cp", "mv"],
    "grep" := ["sed", "awk", "cut"],
    "mkdir" := ["ls", "cd"],
    "touch" := ["ls", "pico", "chmod"],
    "cat" := ["grep", "sed", "tr"],
    "wc" := ["awk", "sed", "sort"],
    "man" := ["info", "apropos"],
    "pwd" := ["cd", "ls", "echo"],
    "date" := ["cal", "timedatectl"],
    "who" := ["w", "finger", "last"],
    "head" := ["tail", "sed", "awk"],
    "tr" := ["sed", "awk", "cut"],
    "paste" := ["join", "sort", "awk"],
    "tail" := ["head", "sed", "awk"],
    "sed" := ["awk", "grep", "tr"],
    "printf" := ["echo", "awk", "printf"],
    "pico" := ["nano", "vim", "emacs"],
    "cp" := ["mv", "rsync", "scp"],
    "rm" := ["mv", "find", "rmdir"],
    "mv" := ["cp", "rsync", "scp"]
  ]

  function NoExample(cmd: string): string {
    "No example available for " + cmd
  }

  function NoRecommendation(cmd: string): string {
    "No specific recommendations for '" + cmd + "'"
  }

  /** `get_examples` */
  function Example(cmd: string): string {
    if cmd in ExampleTable then ExampleTable[cmd] else NoExample(cmd)
  }

  /** `get_recommended_commands` */
  function Recommended(cmd: string): string {
    if cmd in RecommendTable then Join(RecommendTable[cmd], ", ") else NoRecommendation(cmd)
  }

  const DocPrefix: string := "https://linux.die.net/man/1/"

  /** `get_online_documentation_links` */
  function DocLink(cmd: string): string {
    DocPrefix + cmd
  }

  /** No canned example is the placeholder, so the placeholder means "not in the table". */
  lemma ExamplePlaceholderIff(cmd: string)
    ensures Example(cmd) == NoExample(cmd) <==> cmd !in ExampleTable
  {
    if cmd in ExampleTable {
      var v := ExampleTable[cmd];
      assert v != [] && v[0] != 'N';
      assert NoExample(cmd)[0] == 'N';
    }
  }

  /** A join begins with the first part's first character. */
  lemma JoinHead(parts: seq<string>, sep: string)
    requires |parts| >= 1 && parts[0] != []
    ensures Join(parts, sep) != [] && Join(parts, sep)[0] == parts[0][0]
  {
    JoinFirst(parts, sep);
  }

  /** No recommendation list renders as the placeholder. */
  lemma RecommendationPlaceholderIff(cmd: string)
    ensures Recommended(cmd) == NoRecommendation(cmd) <==> cmd !in RecommendTable
  {
    if cmd in RecommendTable {
      var names := RecommendTable[cmd];
      assert |names| >= 1 && names[0] != [] && names[0][0] != 'N';
      JoinHead(names, ", ");
      assert NoRecommendation(cmd)[0] == 'N';
    }
  }

  /** The command is recoverable from its documentation link. */
  lemma DocLinkInverse(cmd: string, other: string)
    ensures StartsWith(DocLink(cmd), DocPrefix) && DocLink(cmd)[|DocPrefix|..] == cmd
    ensures DocLink(cmd) == DocLink(other) ==> cmd == other
  {
    assert DocLink(cmd)[|DocPrefix|..] == cmd;
    assert DocLink(other)[|DocPrefix|..] == other;
  }

  // ---------------------------------------------------------------------
  // Assembly

  /**
   `generate_manual` once its probes have answered: the description is
   consulted first, then the version; an exception from either escapes,
   and every other field is total.
   */
  function Assemble(cmd: string, description: Result<string, ProbeError>,
                    version: Result<string, ProbeError>, related: string): Result<Manual, ProbeError>
  {
    match description
    case Err(e) => Err(e)
    case Ok(d) =>
      match version
      case Err(e) => Err(e)
      case Ok(v) => Ok(Manual(cmd, d, v, Example(cmd), related, DocLink(cmd), Recommended(cmd)))
  }

  /** `generate_manual`: probe the host, then assemble. */
  function GenerateManual(cmd: string, host: Host): (r: Result<Manual, ProbeError>)
    ensures r.Ok? ==> r.value.name == cmd && Trimmed(r.value.description) && Trimmed(r.value.version)
    ensures r.Err? ==> r.error != CalledProcessError || host.bash.None?
  {
    Assemble(cmd, CommandDescription(cmd, host), VersionHistory(host), RelatedCommands(cmd, host))
  }

  lemma AssembleOutcome(cmd: string, d: Result<string, ProbeError>, v: Result<string, ProbeError>, related: string)
    ensures Assemble(cmd, d, v, related).Ok? <==> d.Ok? && v.Ok?
    ensures d.Err? ==> Assemble(cmd, d, v, related) == Err(d.error)
    ensures d.Ok? && v.Err? ==> Assemble(cmd, d, v, related) == Err(v.error)
    ensures Assemble(cmd, d, v, related).Ok? ==>
      var m := Assemble(cmd, d, v, related).value;
      && Get(m, NameField) == cmd && Get(m, DescriptionField) == d.value
      && Get(m, VersionField) == v.value && Get(m, RelatedField) == related
      && m.example == Example(cmd) && m.recommended == Recommended(cmd) && m.docLink == DocLink(cmd)
  {
  }

  /**
   The record is built exactly when both chains produce a value, and a
   description failure takes precedence over a version failure.
   */
  lemma GenerateManualOutcome(cmd: string, host: Host)
    ensures GenerateManual(cmd, host).Ok? <==>
      CommandDescription(cmd, host).Ok? && VersionHistory(host).Ok?
    ensures CommandDescription(cmd, host).Err? ==>
      GenerateManual(cmd, host) == Err(CommandDescription(cmd, host).error)
    ensures CommandDescription(cmd, host).Ok? && VersionHistory(host).Err? ==>
      GenerateManual(cmd, host) == Err(VersionHistory(host).error)
  {
    AssembleOutcome(cmd, CommandDescription(cmd, host), VersionHistory(host), RelatedCommands(cmd, host));
  }

  /**
   A command that is not installed never gets a record: whichever source
   answers the description, running the command for its version raises
   `FileNotFoundError`, and nothing catches it.
   */
  lemma NotInstalledFails(cmd: string, host: Host)
    requires !host.installed
    ensures GenerateManual(cmd, host) == Err(FileNotFoundError)
  {
    DescriptionChain(cmd, host);
    VersionChain(host);
    GenerateManualOutcome(cmd, host);
  }

  /** A built record is named after the command and carries the probed values. */
  lemma GenerateManualFields(cmd: string, host: Host)
    ensures GenerateManual(cmd, host).Ok? ==>
      var m := GenerateManual(cmd, host).value;
      && Get(m, NameField) == cmd
      && Get(m, DescriptionField) == CommandDescription(cmd, host).value
      && Get(m, VersionField) == VersionHistory(host).value
      && Get(m, RelatedField) == RelatedCommands(cmd, host)
  {
    AssembleOutcome(cmd, CommandDescription(cmd, host), VersionHistory(host), RelatedCommands(cmd, host));
  }

  /**
   The example, recommendation and link of a built record depend on the
   name alone: the placeholders appear exactly for commands outside the
   tables, and the link gives the name back.
   */
  lemma GenerateManualStatic(cmd: string, host: Host)
    ensures GenerateManual(cmd, host).Ok? ==>
      var m := GenerateManual(cmd, host).value;
      && (Get(m, ExampleField) == NoExample(cmd) <==> cmd !in ExampleTable)
      && (Get(m, RecommendedField) == NoRecommendation(cmd) <==> cmd !in RecommendTable)
      && StartsWith(Get(m, LinkField), DocPrefix) && Get(m, LinkField)[|DocPrefix|..] == cmd
  {
    AssembleOutcome(cmd, CommandDescription(cmd, host), VersionHistory(host), RelatedCommands(cmd, host));
    if GenerateManual(cmd, host).Ok? {
      StaticFields(cmd, GenerateManual(cmd, host).value);
    }
  }

  lemma StaticFields(cmd: string, m: Manual)
    requires m.example == Example(cmd) && m.recommended == Recommended(cmd) && m.docLink == DocLink(cmd)
    ensures Get(m, ExampleField) == NoExample(cmd) <==> cmd !in ExampleTable
    ensures Get(m, RecommendedField) == NoRecommendation(cmd) <==> cmd !in RecommendTable
    ensures StartsWith(Get(m, LinkField), DocPrefix) && Get(m, LinkField)[|DocPrefix|..] == cmd
  {
    ExamplePlaceholderIff(cmd);
    RecommendationPlaceholderIff(cmd);
    DocLinkInverse(cmd, cmd);
  }
}

=== FILE: probe.dfy ===
/**
 The command probe: how the generator obtains a command's description,
 version and related commands from the host. Every shell call is an oracle
 answer in `Host`; what remains is deterministic work over lines and words.
 */
module Probe {
  import opened Results
  import opened PyText

  /**
   The captured standard output of each shell call made for one command,
   as text after the universal-newline translation (`\r\n` and `\r` read as
   `\n`); `None` is a non-zero exit, which Python reports as `CalledProcessError`.
   */
  datatype Host = Host(
    installed: bool,               // an executable named <cmd> exists on the path
    man: Option<string>,           // man <cmd>
    help: Option<string>,          // <cmd> --help
    longVersion: Option<string>,   // <cmd> --version
    shortVersion: Option<string>,  // <cmd> -v
    apropos: Option<string>,       // man -k <cmd>
    bash: Option<string>           // bash --version
  )

  /** An exception the probing code does not catch. */
  datatype ProbeError =
    | IndexError          // a `[1]` or `[3]` subscript past the end of a split
    | CalledProcessError  // `bash --version` itself failed
    | FileNotFoundError   // the command itself is not installed, so it cannot be run

  /** `out.split('\n')` */
  function Lines(out: string): seq<string> {
    Split(out, '\n')
  }

  /** `out.split('\n')[0]`: the text before the first newline. */
  function FirstLine(out: string): (line: string)
    ensures '\n' !in line
    ensures StartsWith(out, line)
    ensures line == out || out[|line|] == '\n'
  {
    var parts := Lines(out);
    JoinSplit(out, '\n');
    JoinFirst(parts, "\n");
    parts[0]
  }

  /** Index of the first element satisfying `p`: the `next(...)` or flag loop over a sequence. */
  function FirstIndex<T>(p: T -> bool, xs: seq<T>): (r: Option<nat>)
    ensures r.Some? ==> r.value < |xs| && p(xs[r.value])
    ensures r.Some? ==> forall j :: 0 <= j < r.value ==> !p(xs[j])
    ensures r.None? ==> forall j :: 0 <= j < |xs| ==> !p(xs[j])
    decreases |xs|
  {
    if xs == [] then None
    else if p(xs[0]) then Some(0)
    else
      var tail := FirstIndex(p, xs[1..]);
      assert forall j :: 1 <= j < |xs| ==> xs[j] == xs[1..][j - 1];
      if tail.None? then None else Some(tail.value + 1)
  }

  /** The longest prefix of `xs` whose every element satisfies `p`. */
  function TakeWhile<T>(p: T -> bool, xs: seq<T>): (r: seq<T>)
    ensures |r| <= |xs| && r == xs[..|r|]
    ensures forall j :: 0 <= j < |r| ==> p(r[j])
    ensures |r| == |xs| || !p(xs[|r|])
    decreases |xs|
  {
    if xs == [] || !p(xs[0]) then []
    else
      var rest := TakeWhile(p, xs[1..]);
      assert xs[..|rest| + 1] == [xs[0]] + rest;
      [xs[0]] + rest
  }

  // ---------------------------------------------------------------------
  // Description

  const DescriptionHeader: string := "DESCRIPTION"

  /** The description sentinel, before the final `strip()`. */
  function NoDescription(cmd: string): string {
    "There is no description for " + cmd
  }

  /** The man-page loop: a flag set by the header, lines accumulated until a blank one. */
  function ScanDescription(lines: seq<string>, started: bool, acc: string): string
    decreases |lines|
  {
    if lines == [] then acc
    else if started then
      if Strip(lines[0]) == "" then acc
      else ScanDescription(lines[1..], true, acc + lines[0] + "\n")
    else if Strip(lines[0]) == DescriptionHeader then ScanDescription(lines[1..], true, acc)
    else ScanDescription(lines[1..], false, acc)
  }

  /** Whether a man-page line is the DESCRIPTION header once stripped. */
  predicate IsHeaderLine(line: string) {
    Strip(line) == DescriptionHeader
  }

  /** Index of the first line whose stripped form is the header. */
  function HeaderIndex(lines: seq<string>): (r: Option<nat>)
    ensures r.Some? ==> r.value < |lines| && Strip(lines[r.value]) == DescriptionHeader
    ensures r.Some? ==> forall j :: 0 <= j < r.value ==> Strip(lines[j]) != DescriptionHeader
    ensures r.None? ==> forall j :: 0 <= j < |lines| ==> Strip(lines[j]) != DescriptionHeader
  {
    FirstIndex(IsHeaderLine, lines)
  }

  /** Whether a line is non-blank: its `strip()` is not empty. */
  predicate IsTextLine(line: string) {
    Strip(line) != ""
  }

  /** The longest prefix of `lines` with no blank line. */
  function Paragraph(lines: seq<string>): (p: seq<string>)
    ensures |p| <= |lines| && p == lines[..|p|]
    ensures forall j :: 0 <= j < |p| ==> Strip(p[j]) != ""
    ensures |p| == |lines| || Strip(lines[|p|]) == ""
  {
    TakeWhile(IsTextLine, lines)
  }

  /**
   What the man page contributes: the lines strictly after the first header
   line, up to and excluding the first blank line, each with its newline;
   empty when there is no header.
   */
  function ManDescription(lines: seq<string>): string {
    match HeaderIndex(lines)
    case None => ""
    case Some(i) => Unlines(Paragraph(lines[i + 1..]))
  }

  /** Once the header has been seen, the loop collects exactly the paragraph. */
  lemma {:induction false} ScanCollects(lines: seq<string>, acc: string)
    ensures ScanDescription(lines, true, acc) == acc + Unlines(Paragraph(lines))
    decreases |lines|
  {
    if lines != [] && Strip(lines[0]) != "" {
      ScanCollects(lines[1..], acc + lines[0] + "\n");
      assert Paragraph(lines) == [lines[0]] + Paragraph(lines[1..]);
      assert ([lines[0]] + Paragraph(lines[1..]))[1..] == Paragraph(lines[1..]);
    }
  }

  /** Before the header, the loop skips to it and then collects the paragraph. */
  lemma {:induction false} ScanFindsHeader(lines: seq<string>, acc: string)
    ensures ScanDescription(lines, false, acc) == acc + ManDescription(lines)
    decreases |lines|
  {
    if lines != [] {
      if Strip(lines[0]) == DescriptionHeader {
        ScanCollects(lines[1..], acc);
      } else {
        ScanFindsHeader(lines[1..], acc);
        ManDescriptionSkip(lines);
      }
    }
  }

  /** A line that is not the header does not change what follows the header. */
  lemma ManDescriptionSkip(lines: seq<string>)
    requires lines != [] && Strip(lines[0]) != DescriptionHeader
    ensures ManDescription(lines) == ManDescription(lines[1..])
  {
    var tail := HeaderIndex(lines[1..]);
    if tail.Some? {
      assert HeaderIndex(lines) == Some(tail.value + 1);
      assert lines[1..][tail.value + 1..] == lines[tail.value + 2..];
    } else {
      assert HeaderIndex(lines) == None;
    }
  }

  /**
   `get_command_description`: the man page's DESCRIPTION paragraph; if `man`
   fails, line 1 of the `--help` output; if that fails too, the sentinel.
   A `--help` output with no newline raises `IndexError`.
   */
  function CommandDescription(cmd: string, host: Host): (r: Result<string, ProbeError>)
    ensures r.Ok? ==> Trimmed(r.value)
    ensures r.Err? ==> host.man.None? && r.error != CalledProcessError
  {
    match host.man
    case Some(out) => StripOk(Ok(ScanDescription(Lines(out), false, "")))
    case None =>
      if !host.installed then Err(FileNotFoundError)
      else
        match host.help
        case Some(out) =>
          var lines := Lines(out);
          if |lines| < 2 then Err(IndexError) else StripOk(Ok(lines[1]))
        case None => StripOk(Ok(NoDescription(cmd)))
  }

  /**
   The description chain: the man page's DESCRIPTION paragraph when `man`
   succeeds (empty without a header); otherwise the stripped line after the
   first newline of the `--help` output, `IndexError` when it has no newline;
   otherwise the stripped sentinel. When `man` fails and the command is not
   installed, running `<cmd> --help` raises `FileNotFoundError`.
   */
  lemma DescriptionChain(cmd: string, host: Host)
    ensures host.man.Some? ==>
      CommandDescription(cmd, host) == Ok(Strip(ManDescription(Lines(host.man.value))))
    ensures host.man.None? && !host.installed ==>
      CommandDescription(cmd, host) == Err(FileNotFoundError)
    ensures host.man.None? && host.installed && host.help.Some? ==>
      var help := host.help.value;
      (CommandDescription(cmd, host).Err? <==> '\n' !in help) &&
      (CommandDescription(cmd, host).Err? ==> CommandDescription(cmd, host).error == IndexError) &&
      (CommandDescription(cmd, host).Ok? ==>
        CommandDescription(cmd, host).value == Strip(FirstLine(help[Find(help, '\n').value + 1..])))
    ensures host.man.None? && host.installed && host.help.None? ==>
      CommandDescription(cmd, host) == Ok(Strip(NoDescription(cmd)))
  {
    match host.man
    case Some(out) =>
      var lines := Lines(out);
      calc {
        CommandDescription(cmd, host);
        Ok(Strip(ScanDescription(lines, false, "")));
        { ScanFindsHeader(lines, ""); assert "" + ManDescription(lines) == ManDescription(lines); }
        Ok(Strip(ManDescription(lines)));
      }
    case None =>
      if host.help.Some? {
        SecondLine(host.help.value);
      }
  }

  /** `out.split('\n')[1]` exists exactly when `out` has a newline, and is the next line after it. */
  lemma SecondLine(out: string)
    ensures |Lines(out)| >= 2 <==> '\n' in out
    ensures |Lines(out)| >= 2 ==> Lines(out)[1] == FirstLine(out[Find(out, '\n').value + 1..])
  {
    match Find(out, '\n')
    case None =>
    case Some(i) =>
      assert Lines(out) == [out[..i]] + Lines(out[i + 1..]);
  }

  /** A man page with no DESCRIPTION header yields the empty description, with no fallback. */
  lemma NoHeaderEmptyDescription(cmd: string, host: Host)
    requires host.man.Some?
    requires forall j :: 0 <= j < |Lines(host.man.value)| ==> Strip(Lines(host.man.value)[j]) != DescriptionHeader
    ensures CommandDescription(cmd, host) == Ok("")
  {
    DescriptionChain(cmd, host);
    assert Strip("") == "" by { StripEmptyIff(""); }
  }

  /** With both sources failing, a trimmed non-empty command name gets the sentinel verbatim. */
  lemma SentinelDescription(cmd: string, host: Host)
    requires host.man.None? && host.installed && host.help.None?
    requires cmd != [] && Trimmed(cmd)
    ensures CommandDescription(cmd, host) == Ok("There is no description for " + cmd)
  {
    var s := NoDescription(cmd);
    assert s[|s| - 1] == cmd[|cmd| - 1];
    assert [] + s + [] == s;
    StripUnique([], s, []);
  }

  // ---------------------------------------------------------------------
  // Version

  /** `line.split(' ', 1)[1]`: the text after the first space, or `IndexError`. */
  function AfterFirstSpace(line: string): (r: Result<string, ProbeError>)
    ensures r.Err? <==> ' ' !in line
    ensures r.Err? ==> r.error == IndexError
    ensures r.Ok? ==> |r.value| < |line| && EndsWith(line, r.value)
    ensures r.Ok? ==> line[|line| - |r.value| - 1] == ' ' && ' ' !in line[..|line| - |r.value| - 1]
  {
    var parts := SplitMax(line, ' ', 1);
    JoinSplitMax(line, ' ', 1);
    if |parts| < 2 then
      assert line == parts[0];
      Err(IndexError)
    else
      JoinCons(parts[0], parts[1..], " ");
      assert [parts[0]] + parts[1..] == parts;
      assert line == parts[0] + " " + parts[1];
      assert line[..|parts[0]|] == parts[0];
      Ok(parts[1])
  }

  /** Version text from a `--version` / `-v` output: after the first space of its first line. */
  function FlagVersion(out: string): Result<string, ProbeError> {
    AfterFirstSpace(FirstLine(out))
  }

  predicate IsVersionLine(line: string) {
    StartsWith(line, "Version")
  }

  /** Index of the first line starting with `Version` (the `next(...)` over the man page). */
  function VersionLineIndex(lines: seq<string>): (r: Option<nat>)
    ensures r.Some? ==> r.value < |lines| && StartsWith(lines[r.value], "Version")
    ensures r.Some? ==> forall j :: 0 <= j < r.value ==> !StartsWith(lines[j], "Version")
    ensures r.None? ==> forall j :: 0 <= j < |lines| ==> !StartsWith(lines[j], "Version")
  {
    FirstIndex(IsVersionLine, lines)
  }

  /** The man-page `Version` line, if `man` succeeded and has one. */
  function ManVersionLine(man: Option<string>): (r: Option<string>)
    ensures r.None? <==> (man.None? || forall j :: 0 <= j < |Lines(man.value)| ==> !StartsWith(Lines(man.value)[j], "Version"))
    ensures r.Some? ==> exists i :: (0 <= i < |Lines(man.value)| && r.value == Lines(man.value)[i]
      && StartsWith(r.value, "Version") && forall j :: 0 <= j < i ==> !StartsWith(Lines(man.value)[j], "Version"))
  {
    match man
    case None => None
    case Some(out) =>
      match VersionLineIndex(Lines(out))
      case None => None
      case Some(i) => Some(Lines(out)[i])
  }

  const BashPrefix: string := "As the BASH version: "

  /** `"As the BASH version: " + out.split(' ', 4)[3].split('\n')[0]` */
  function BashVersion(out: string): (r: Result<string, ProbeError>)
    ensures r.Err? <==> |Split(out, ' ')| < 4
    ensures r.Err? ==> r.error == IndexError
    ensures r.Ok? ==> r.value == BashPrefix + FirstLine(Split(out, ' ')[3])
  {
    var parts := SplitMax(out, ' ', 4);
    SplitMaxAgrees(out, ' ', 4, 3);
    if |parts| < 4 then Err(IndexError) else Ok(BashPrefix + FirstLine(parts[3]))
  }

  /** `.strip()` applied to a value that was computed. */
  function StripOk(r: Result<string, ProbeError>): (s: Result<string, ProbeError>)
    ensures s.Ok? <==> r.Ok?
    ensures s.Err? ==> s.error == r.error
    ensures s.Ok? ==> Trimmed(s.value)
  {
    match r
    case Ok(v) =>
      StripSpec(v);
      Ok(Strip(v))
    case Err(e) => Err(e)
  }

  /**
   `get_version_history`: `--version`, then `-v`, then the man page's
   `Version` line, then the shell's version; each answer is stripped.
   */
  function VersionHistory(host: Host): (r: Result<string, ProbeError>)
    ensures r.Ok? ==> Trimmed(r.value)
    ensures r == Err(FileNotFoundError) <==> !host.installed
    ensures r == Err(CalledProcessError) ==> host.bash.None?
  {
    if !host.installed then Err(FileNotFoundError)
    else match host.longVersion
    case Some(out) => StripOk(FlagVersion(out))
    case None =>
      match host.shortVersion
      case Some(out) => StripOk(FlagVersion(out))
      case None =>
        match ManVersionLine(host.man)
        case Some(line) => StripOk(AfterFirstSpace(line))
        case None =>
          match host.bash
          case None => Err(CalledProcessError)
          case Some(out) => StripOk(BashVersion(out))
  }

  /**
   The value a version flag's output yields: the stripped text after the
   first space of its first line, or `IndexError` when that line has no space.
   */
  predicate FromFlagOutput(out: string, r: Result<string, ProbeError>) {
    var line := FirstLine(out);
    && (r.Err? <==> ' ' !in line)
    && (r.Err? ==> r.error == IndexError)
    && (r.Ok? ==> r.value == Strip(line[Find(line, ' ').value + 1..]))
  }

  lemma FlagVersionMeaning(out: string)
    ensures FromFlagOutput(out, StripOk(FlagVersion(out)))
  {
    var line := FirstLine(out);
    var r := AfterFirstSpace(line);
    if r.Ok? {
      var k := |line| - |r.value| - 1;
      FindFirst(line, ' ', k);
      assert line[k + 1..] == r.value;
    }
  }

  /**
   The chain, step by step: which oracle answer decides the version, and
   what the version then is. A command that is not installed cannot be run
   with `--version`, and the `FileNotFoundError` escapes.
   */
  lemma VersionChain(host: Host)
    ensures !host.installed ==> VersionHistory(host) == Err(FileNotFoundError)
    ensures host.installed && host.longVersion.Some? ==>
      FromFlagOutput(host.longVersion.value, VersionHistory(host))
    ensures host.installed && host.longVersion.None? && host.shortVersion.Some? ==>
      FromFlagOutput(host.shortVersion.value, VersionHistory(host))
    ensures host.installed && host.longVersion.None? && host.shortVersion.None? &&
            ManVersionLine(host.man).Some? ==>
      var line := ManVersionLine(host.man).value;
      (VersionHistory(host).Err? <==> ' ' !in line) &&
      (VersionHistory(host).Ok? ==> VersionHistory(host).value == Strip(line[Find(line, ' ').value + 1..]))
    ensures host.installed && host.longVersion.None? && host.shortVersion.None? &&
            ManVersionLine(host.man).None? ==>
      (host.bash.None? ==> VersionHistory(host) == Err(CalledProcessError)) &&
      (host.bash.Some? ==>
        (VersionHistory(host).Err? <==> |Split(host.bash.value, ' ')| < 4) &&
        (VersionHistory(host).Ok? ==>
          VersionHistory(host).value == Strip(BashPrefix + FirstLine(Split(host.bash.value, ' ')[3]))))
  {
    if !host.installed {
    } else {
    match host.longVersion
    case Some(out) => FlagVersionMeaning(out);
    case None =>
      match host.shortVersion
      case Some(out) => FlagVersionMeaning(out);
      case None =>
        match ManVersionLine(host.man)
        case Some(line) =>
          var r := AfterFirstSpace(line);
          if r.Ok? {
            var k := |line| - |r.value| - 1;
            FindFirst(line, ' ', k);
            assert line[k + 1..] == r.value;
          }
        case None =>
    }
  }

  /**
   A later source is consulted only when every earlier one failed: hosts
   that agree on the deciding answer agree on the version.
   */
  lemma VersionChainOrder(h1: Host, h2: Host)
    requires h1.installed == h2.installed
    ensures (h1.longVersion.Some? && h1.longVersion == h2.longVersion) ==>
      VersionHistory(h1) == VersionHistory(h2)
    ensures (h1.longVersion.None? && h2.longVersion.None? &&
             h1.shortVersion.Some? && h1.shortVersion == h2.shortVersion) ==>
      VersionHistory(h1) == VersionHistory(h2)
    ensures (h1.longVersion.None? && h2.longVersion.None? &&
             h1.shortVersion.None? && h2.shortVersion.None? &&
             ManVersionLine(h1.man).Some? && ManVersionLine(h1.man) == ManVersionLine(h2.man)) ==>
      VersionHistory(h1) == VersionHistory(h2)
  {
  }

  // ---------------------------------------------------------------------
  // Related commands

  /** At most this many related commands are kept. */
  const MaxRelated: nat := 5

  /** The related-commands sentinel. */
  function NoRelated(cmd: string): string {
    "No related commands found for " + cmd
  }

  /**
   What one line of `man -k` output contributes: `line.split()[0]` when
   `line.strip()` is non-empty, nothing otherwise. A line strips to "" exactly
   when it is all whitespace (`StripEmptyIff`), which is the test written here.
   */
  function LineName(line: string): (n: seq<string>)
    ensures |n| <= 1
  {
    if AllSpace(line) then [] else [Words(line)[0]]
  }

  /** `f` applied to each element, the results concatenated in order. */
  function FlatMap<T, U>(f: T -> seq<U>, xs: seq<T>): seq<U>
    decreases |xs|
  {
    if xs == [] then [] else f(xs[0]) + FlatMap(f, xs[1..])
  }

  lemma {:induction false} FlatMapConcat<T, U>(f: T -> seq<U>, a: seq<T>, b: seq<T>)
    ensures FlatMap(f, a + b) == FlatMap(f, a) + FlatMap(f, b)
    decreases |a|
  {
    if a == [] {
      assert a + b == b;
    } else {
      FlatMapConcat(f, a[1..], b);
      assert (a + b)[0] == a[0] && (a + b)[1..] == a[1..] + b;
      assert f(a[0]) + (FlatMap(f, a[1..]) + FlatMap(f, b)) == (f(a[0]) + FlatMap(f, a[1..])) + FlatMap(f, b);
    }
  }

  /** `line.split()[0]` of every line whose `strip()` is non-empty, in order. */
  function FirstWords(lines: seq<string>): (ws: seq<string>)
    ensures |ws| <= |lines|
  {
    FlatMapLength(lines);
    FlatMap(LineName, lines)
  }

  lemma {:induction false} FlatMapLength(lines: seq<string>)
    ensures |FlatMap(LineName, lines)| <= |lines|
    decreases |lines|
  {
    if lines != [] {
      FlatMapLength(lines[1..]);
    }
  }

  /** One line in front contributes its first word when it is not blank, and nothing when it is. */
  lemma FirstWordsCons(line: string, rest: seq<string>)
    ensures Strip(line) == "" ==> FirstWords([line] + rest) == FirstWords(rest)
    ensures Strip(line) != "" ==> |Words(line)| > 0 && FirstWords([line] + rest) == [Words(line)[0]] + FirstWords(rest)
  {
    StripEmptyIff(line);
    var lines := [line] + rest;
    assert lines[0] == line && lines[1..] == rest;
  }

  /** The names of a concatenation of outputs are the names of each, in order. */
  lemma FirstWordsConcat(a: seq<string>, b: seq<string>)
    ensures FirstWords(a + b) == FirstWords(a) + FirstWords(b)
  {
    FlatMapConcat(LineName, a, b);
  }

  /** Non-empty words with no whitespace in them: what `split()` can produce. */
  predicate AreNames(ws: seq<string>) {
    forall i :: 0 <= i < |ws| ==> ws[i] != [] && NoSpace(ws[i])
  }

  lemma AreNamesConcat(a: seq<string>, b: seq<string>)
    requires AreNames(a) && AreNames(b)
    ensures AreNames(a + b)
  {
    assert forall i :: |a| <= i < |a + b| ==> (a + b)[i] == b[i - |a|];
  }

  /** Every name is a non-empty run of non-whitespace characters. */
  lemma {:induction false} FirstWordsAreNames(lines: seq<string>)
    ensures AreNames(FirstWords(lines))
    decreases |lines|
  {
    if lines != [] {
      FirstWordsAreNames(lines[1..]);
      var n := LineName(lines[0]);
      assert AreNames(n) by {
        if n != [] {
          assert n == [Words(lines[0])[0]];
        }
      }
      AreNamesConcat(n, FirstWords(lines[1..]));
      assert FirstWords(lines) == n + FirstWords(lines[1..]);
    }
  }

  /** No name comes out exactly when every line is blank. */
  lemma {:induction false} FirstWordsSpec(lines: seq<string>)
    ensures FirstWords(lines) == [] <==> forall j :: 0 <= j < |lines| ==> Strip(lines[j]) == ""
    decreases |lines|
  {
    if lines != [] {
      FirstWordsSpec(lines[1..]);
      StripEmptyIff(lines[0]);
      assert forall j :: 1 <= j < |lines| ==> lines[j] == lines[1..][j - 1];
    }
  }

  /** `get_related_commands`: the first word of each non-blank `man -k` line, at most five, tab-joined. */
  function RelatedCommands(cmd: string, host: Host): (r: string)
    ensures host.apropos.Some? ==> ' ' !in r
  {
    match host.apropos
    case None => NoRelated(cmd)
    case Some(out) =>
      var names := FirstWords(Lines(out));
      var kept := names[..if |names| < MaxRelated then |names| else MaxRelated];
      FirstWordsAreNames(Lines(out));
      assert forall i :: 0 <= i < |kept| ==> kept[i] == names[i];
      JoinedNames(kept);
      Join(kept, "\t")
  }

  lemma JoinAvoids(parts: seq<string>, sep: string, c: char)
    requires forall i :: 0 <= i < |parts| ==> c !in parts[i]
    requires c !in sep
    ensures c !in Join(parts, sep)
  {
    if |parts| > 1 {
      JoinAvoids(parts[1..], sep, c);
    }
  }

  /** Non-empty names free of whitespace, tab-joined, split back on tabs and carry no space. */
  lemma JoinedNames(kept: seq<string>)
    requires AreNames(kept)
    ensures ' ' !in Join(kept, "\t")
    ensures Join(kept, "\t") == "" <==> kept == []
    ensures kept != [] ==> Split(Join(kept, "\t"), '\t') == kept
  {
    assert forall i :: 0 <= i < |kept| ==> ' ' !in kept[i] && '\t' !in kept[i] by {
      forall i | 0 <= i < |kept|
        ensures ' ' !in kept[i] && '\t' !in kept[i]
      {
        assert NoSpace(kept[i]);
      }
    }
    JoinAvoids(kept, "\t", ' ');
    if kept != [] {
      SplitJoin(kept, '\t');
      if |kept| == 1 {
        assert Join(kept, "\t") == kept[0];
      } else {
        JoinCons(kept[0], kept[1..], "\t");
        assert [kept[0]] + kept[1..] == kept;
      }
      assert kept[0] != [];
    }
  }

  /**
   On success the field splits back on tabs into the first at most five
   command names; a failed `man -k` is the only way to get a space in it.
   */
  lemma {:induction false} RelatedCommandsMeaning(cmd: string, host: Host)
    ensures host.apropos.None? ==> RelatedCommands(cmd, host) == NoRelated(cmd)
    ensures host.apropos.Some? ==>
      var names := FirstWords(Lines(host.apropos.value));
      var kept := names[..if |names| < MaxRelated then |names| else MaxRelated];
      (RelatedCommands(cmd, host) == "" <==>
        forall j :: 0 <= j < |Lines(host.apropos.value)| ==> Strip(Lines(host.apropos.value)[j]) == "") &&
      (names != [] ==> Split(RelatedCommands(cmd, host), '\t') == kept && 1 <= |kept| <= MaxRelated)
    ensures ' ' in RelatedCommands(cmd, host) <==> host.apropos.None?
  {
    match host.apropos
    case None =>
      assert NoRelated(cmd)[2] == ' ';
    case Some(out) =>
      var names := FirstWords(Lines(out));
      var kept := names[..if |names| < MaxRelated then |names| else MaxRelated];
      FirstWordsAreNames(Lines(out));
      assert forall i :: 0 <= i < |kept| ==> kept[i] == names[i];
      JoinedNames(kept);
      FirstWordsSpec(Lines(out));
  }
}

=== FILE: pytext.dfy ===
/**
 The subset of Python's `str` operations the manual generator relies on:
 `isspace`, `strip`, `split(sep)`, `split(sep, maxsplit)`, `split()`,
 `startswith`, `sep.join(...)`, and the line iteration of a text file.
 */
module PyText {
  import opened Results

  /** The characters for which Python's `str.isspace()` is true. */
  predicate IsSpace(c: char) {
    || ('\U{09}' <= c <= '\U{0D}')
    || ('\U{1C}' <= c <= '\U{20}')
    || c == '\U{85}' || c == '\U{A0}' || c == '\U{1680}'
    || ('\U{2000}' <= c <= '\U{200A}')
    || c == '\U{2028}' || c == '\U{2029}' || c == '\U{202F}'
    || c == '\U{205F}' || c == '\U{3000}'
  }

  predicate AllSpace(s: string) {
    forall i :: 0 <= i < |s| ==> IsSpace(s[i])
  }

  predicate NoSpace(s: string) {
    forall i :: 0 <= i < |s| ==> !IsSpace(s[i])
  }

  /** Neither starts nor ends with whitespace: what `strip()` leaves behind. */
  predicate Trimmed(s: string) {
    s == [] || (!IsSpace(s[0]) && !IsSpace(s[|s| - 1]))
  }

  predicate StartsWith(s: string, prefix: string) {
    |prefix| <= |s| && s[..|prefix|] == prefix
  }

  predicate EndsWith(s: string, suffix: string) {
    |suffix| <= |s| && s[|s| - |suffix|..] == suffix
  }

  /** Number of leading whitespace characters: where `lstrip()` cuts. */
  function LeadingSpaces(s: string): (n: nat)
    ensures n <= |s| && AllSpace(s[..n])
    ensures n == |s| || !IsSpace(s[n])
  {
    if |s| == 0 || !IsSpace(s[0]) then 0
    else
      var n := LeadingSpaces(s[1..]);
      assert s[..n + 1] == [s[0]] + s[1..][..n];
      n + 1
  }

  /** Start of the trailing whitespace: where `rstrip()` cuts. */
  function TrailingStart(s: string): (n: nat)
    ensures n <= |s| && AllSpace(s[n..])
    ensures n == 0 || !IsSpace(s[n - 1])
  {
    if |s| == 0 || !IsSpace(s[|s| - 1]) then |s|
    else
      var n := TrailingStart(s[..|s| - 1]);
      assert s[n..] == s[..|s| - 1][n..] + [s[|s| - 1]];
      n
  }

  /** The cut positions are determined by their contracts. */
  lemma {:induction false} LeadingSpacesUnique(s: string, n: nat)
    requires n <= |s| && AllSpace(s[..n])
    requires n == |s| || !IsSpace(s[n])
    ensures LeadingSpaces(s) == n
  {
    var k := LeadingSpaces(s);
    forall i | 0 <= i < n ensures IsSpace(s[i]) {
      assert s[..n][i] == s[i];
    }
    forall i | 0 <= i < k ensures IsSpace(s[i]) {
      assert s[..k][i] == s[i];
    }
  }

  lemma {:induction false} TrailingStartUnique(s: string, n: nat)
    requires n <= |s| && AllSpace(s[n..])
    requires n == 0 || !IsSpace(s[n - 1])
    ensures TrailingStart(s) == n
  {
    var k := TrailingStart(s);
    forall i | n <= i < |s| ensures IsSpace(s[i]) {
      assert s[n..][i - n] == s[i];
    }
    forall i | k <= i < |s| ensures IsSpace(s[i]) {
      assert s[k..][i - k] == s[i];
    }
  }

  /** Python's `s.strip()`: drop leading, then trailing, whitespace. */
  function Strip(s: string): string
  {
    var i := LeadingSpaces(s);
    s[i..][..TrailingStart(s[i..])]
  }

  /**
   What `strip()` returns: `s` is an all-whitespace prefix, then the result,
   then an all-whitespace suffix, and the result is trimmed on both ends.
   `StripUnique` is the converse.
   */
  lemma StripSpec(s: string)
    ensures Trimmed(Strip(s))
    ensures LeadingSpaces(s) + |Strip(s)| <= |s|
    ensures AllSpace(s[..LeadingSpaces(s)])
    ensures s[LeadingSpaces(s)..LeadingSpaces(s) + |Strip(s)|] == Strip(s)
    ensures AllSpace(s[LeadingSpaces(s) + |Strip(s)|..])
  {
    var i := LeadingSpaces(s);
    var t := s[i..];
    var j := TrailingStart(t);
    var r := Strip(s);
    assert r == t[..j] && |r| == j;
    SuffixSlices(s, i, j);
    assert AllSpace(s[i + j..]) by { assert t[j..] == s[i + j..]; }
    if j > 0 {
      assert r[0] == t[0] == s[i];
      assert r[j - 1] == t[j - 1];
    }
  }

  lemma SuffixSlices(s: string, k: nat, n: nat)
    requires k + n <= |s|
    ensures s[k..][..n] == s[k..k + n]
    ensures s[k..][n..] == s[k + n..]
  {
  }

  lemma AllSpaceConcat(a: string, b: string)
    requires AllSpace(a) && AllSpace(b)
    ensures AllSpace(a + b)
  {
  }

  /** `strip()` yields the empty string exactly for all-whitespace input. */
  lemma StripEmptyIff(s: string)
    ensures Strip(s) == [] <==> AllSpace(s)
  {
    var k := LeadingSpaces(s);
    var r := Strip(s);
    StripSpec(s);
    if r == [] {
      assert s == s[..k] + s[k..];
      AllSpaceConcat(s[..k], s[k..]);
    } else {
      assert s[k] == r[0];
      assert !IsSpace(s[k]);
    }
  }

  /**
   The converse of Strip's contract: any split of `s` into whitespace, a
   trimmed middle and whitespace determines `strip()`'s result.
   */
  lemma {:induction false} StripUnique(a: string, m: string, b: string)
    requires AllSpace(a) && AllSpace(b) && Trimmed(m)
    ensures Strip(a + m + b) == m
  {
    var s := a + m + b;
    if m == [] {
      AllSpaceConcat(a, b);
      assert s == a + b;
      StripEmptyIff(s);
    } else {
      assert s[..|a|] == a && s[|a|] == m[0];
      LeadingSpacesUnique(s, |a|);
      var t := s[|a|..];
      assert t == m + b;
      assert t[|m|..] == b && t[|m| - 1] == m[|m| - 1];
      TrailingStartUnique(t, |m|);
      assert t[..|m|] == m;
    }
  }

  /** Index of the first occurrence of `c` in `s` (Python's `s.find(c)`, with `None` for -1). */
  function Find(s: string, c: char): (r: Option<nat>)
    ensures r.Some? ==> r.value < |s| && s[r.value] == c
    ensures r.Some? ==> c !in s[..r.value]
    ensures r.None? ==> c !in s
    ensures c in s ==> r.Some?
  {
    if |s| == 0 then None
    else if s[0] == c then Some(0)
    else match Find(s[1..], c)
      case None => None
      case Some(i) =>
        assert s[..i + 1] == [s[0]] + s[1..][..i];
        Some(i + 1)
  }

  /** The first separator determines `Find`. */
  lemma {:induction false} FindFirst(s: string, c: char, i: nat)
    requires i < |s| && s[i] == c && c !in s[..i]
    ensures Find(s, c) == Some(i)
    decreases i
  {
    if i > 0 {
      assert s[0] == s[..i][0];
      assert s[1..][..i - 1] == s[..i][1..];
      FindFirst(s[1..], c, i - 1);
    }
  }

  /** Python's `sep.join(parts)`. */
  function Join(parts: seq<string>, sep: string): string
  {
    if |parts| == 0 then ""
    else if |parts| == 1 then parts[0]
    else parts[0] + sep + Join(parts[1..], sep)
  }

  /**
   Python's `s.split(sep)` for a one-character separator: the pieces between
   separators, one more than there are separators.
   */
  function Split(s: string, sep: char): (parts: seq<string>)
    ensures |parts| >= 1
    ensures forall i :: 0 <= i < |parts| ==> sep !in parts[i]
    decreases |s|
  {
    match Find(s, sep)
    case None => [s]
    case Some(i) => [s[..i]] + Split(s[i + 1..], sep)
  }

  /** `Join` on two or more parts peels off the first part and a separator. */
  lemma JoinCons(first: string, rest: seq<string>, sep: string)
    requires |rest| >= 1
    ensures Join([first] + rest, sep) == first + sep + Join(rest, sep)
  {
    assert ([first] + rest)[1..] == rest;
  }

  /** A join begins with its first part, followed by the separator when more parts follow. */
  lemma JoinFirst(parts: seq<string>, sep: string)
    requires |parts| >= 1
    ensures |parts| == 1 ==> Join(parts, sep) == parts[0]
    ensures |parts| > 1 ==> Join(parts, sep) == parts[0] + sep + Join(parts[1..], sep)
  {
  }

  /** Cutting `s` around the separator at `i`. */
  lemma CutAround(s: string, i: nat)
    requires i < |s|
    ensures s == s[..i] + [s[i]] + s[i + 1..]
  {
  }

  /** The pieces of a split join back to the original string. */
  lemma {:induction false} JoinSplit(s: string, sep: char)
    ensures Join(Split(s, sep), [sep]) == s
    decreases |s|
  {
    match Find(s, sep)
    case None =>
      assert Split(s, sep) == [s];
    case Some(i) =>
      var rest := Split(s[i + 1..], sep);
      calc {
        Join(Split(s, sep), [sep]);
        Join([s[..i]] + rest, [sep]);
        { JoinCons(s[..i], rest, [sep]); }
        s[..i] + [sep] + Join(rest, [sep]);
        { JoinSplit(s[i + 1..], sep); }
        s[..i] + [sep] + s[i + 1..];
        { CutAround(s, i); }
        s;
      }
  }

  /** Splitting a separator-free join recovers the parts. */
  lemma {:induction false} SplitJoin(parts: seq<string>, sep: char)
    requires |parts| >= 1
    requires forall i :: 0 <= i < |parts| ==> sep !in parts[i]
    ensures Split(Join(parts, [sep]), sep) == parts
    decreases |parts|
  {
    if |parts| > 1 {
      var p := parts[0];
      var tail := Join(parts[1..], [sep]);
      var s := Join(parts, [sep]);
      calc {
        s;
        { JoinCons(p, parts[1..], [sep]); assert [p] + parts[1..] == parts; }
        p + [sep] + tail;
      }
      assert s[..|p|] == p && s[|p|] == sep && s[|p| + 1..] == tail;
      FindFirst(s, sep, |p|);
      calc {
        Split(s, sep);
        [p] + Split(tail, sep);
        { SplitJoin(parts[1..], sep); }
        [p] + parts[1..];
        parts;
      }
    }
  }

  /**
   Python's `s.split(sep, maxsplit)`: at most `maxsplit` splits, the last
   piece keeping the unsplit remainder.
   */
  function SplitMax(s: string, sep: char, maxsplit: nat): (parts: seq<string>)
    ensures 1 <= |parts| <= maxsplit + 1
    ensures forall i :: 0 <= i < |parts| - 1 ==> sep !in parts[i]
    decreases maxsplit
  {
    if maxsplit == 0 then [s]
    else match Find(s, sep)
      case None => [s]
      case Some(i) => [s[..i]] + SplitMax(s[i + 1..], sep, maxsplit - 1)
  }

  lemma SplitMaxStep(s: string, sep: char, maxsplit: nat, i: nat)
    requires maxsplit > 0 && Find(s, sep) == Some(i)
    ensures SplitMax(s, sep, maxsplit) == [s[..i]] + SplitMax(s[i + 1..], sep, maxsplit - 1)
  {
  }

  lemma JoinSplitMaxStep(s: string, sep: char, maxsplit: nat, i: nat)
    requires maxsplit > 0 && Find(s, sep) == Some(i)
    requires Join(SplitMax(s[i + 1..], sep, maxsplit - 1), [sep]) == s[i + 1..]
    ensures Join(SplitMax(s, sep, maxsplit), [sep]) == s
  {
    var rest := SplitMax(s[i + 1..], sep, maxsplit - 1);
    SplitMaxStep(s, sep, maxsplit, i);
    JoinConsEq(s[..i], rest, s[i + 1..], [sep]);
    CutAround(s, i);
  }

  lemma JoinConsEq(first: string, rest: seq<string>, tail: string, sep: string)
    requires |rest| >= 1 && Join(rest, sep) == tail
    ensures Join([first] + rest, sep) == first + sep + tail
  {
    JoinCons(first, rest, sep);
  }

  /** The pieces of a bounded split join back to the original string. */
  lemma {:induction false} JoinSplitMax(s: string, sep: char, maxsplit: nat)
    ensures Join(SplitMax(s, sep, maxsplit), [sep]) == s
    decreases maxsplit
  {
    if maxsplit == 0 || Find(s, sep).None? {
      SplitMaxWhole(s, sep, maxsplit);
    } else {
      var i := Find(s, sep).value;
      JoinSplitMax(s[i + 1..], sep, maxsplit - 1);
      JoinSplitMaxStep(s, sep, maxsplit, i);
    }
  }

  lemma SplitMaxWhole(s: string, sep: char, maxsplit: nat)
    requires maxsplit == 0 || Find(s, sep).None?
    ensures Join(SplitMax(s, sep, maxsplit), [sep]) == s
  {
    assert SplitMax(s, sep, maxsplit) == [s];
  }

  /**
   The first `maxsplit` pieces of a bounded split are those of the unbounded
   split, and exist exactly when they exist there.
   */
  lemma {:induction false} SplitMaxAgrees(s: string, sep: char, maxsplit: nat, k: nat)
    requires k < maxsplit
    ensures k < |SplitMax(s, sep, maxsplit)| ==> k < |Split(s, sep)|
    ensures k < |Split(s, sep)| ==> k < |SplitMax(s, sep, maxsplit)|
    ensures k < |Split(s, sep)| ==> SplitMax(s, sep, maxsplit)[k] == Split(s, sep)[k]
    decreases maxsplit
  {
    var f := Find(s, sep);
    if f.None? {
      assert SplitMax(s, sep, maxsplit) == [s];
      assert Split(s, sep) == [s];
    } else {
      var i := f.value;
      var boundedRest := SplitMax(s[i + 1..], sep, maxsplit - 1);
      var fullRest := Split(s[i + 1..], sep);
      assert SplitMax(s, sep, maxsplit) == [s[..i]] + boundedRest;
      assert Split(s, sep) == [s[..i]] + fullRest;
      if k > 0 {
        SplitMaxAgrees(s[i + 1..], sep, maxsplit - 1, k - 1);
      }
    }
  }

  /** Length of the maximal whitespace-free prefix of `s`. */
  function WordLength(s: string): (n: nat)
    ensures n <= |s| && NoSpace(s[..n])
    ensures n == |s| || IsSpace(s[n])
  {
    if |s| == 0 || IsSpace(s[0]) then 0
    else
      var n := WordLength(s[1..]);
      assert s[..n + 1] == [s[0]] + s[1..][..n];
      n + 1
  }

  /** Python's `s.split()`: the maximal whitespace-free runs of `s`, in order. */
  function Words(s: string): (ws: seq<string>)
    ensures forall i :: 0 <= i < |ws| ==> ws[i] != [] && NoSpace(ws[i])
    ensures ws == [] <==> AllSpace(s)
    decreases |s|
  {
    var k := LeadingSpaces(s);
    if k == |s| then
      assert s[..k] == s;
      []
    else
      var t := s[k..];
      var n := WordLength(t);
      var rest := Words(t[n..]);
      [t[..n]] + rest
  }

  /**
   The first word is the maximal whitespace-free run right after the leading
   whitespace, and the remaining words are those of the text after it.
   */
  lemma WordsFirst(s: string)
    requires !AllSpace(s)
    ensures var t := s[LeadingSpaces(s)..];
      var n := WordLength(t);
      0 < n && Words(s) == [t[..n]] + Words(t[n..])
  {
    var k := LeadingSpaces(s);
    var i :| 0 <= i < |s| && !IsSpace(s[i]);
    assert forall j :: 0 <= j < k ==> s[j] == s[..k][j];
    assert k <= i;
    assert s[k..][0] == s[k];
  }

  /** Each line followed by a newline, concatenated. */
  function Unlines(lines: seq<string>): string
  {
    if lines == [] then "" else lines[0] + "\n" + Unlines(lines[1..])
  }

  /**
   The lines a Python text-file iteration yields, without their terminating
   newline: a final empty piece after the last newline is not a line.
   */
  function FileLines(content: string): (lines: seq<string>)
    ensures forall i :: 0 <= i < |lines| ==> '\n' !in lines[i]
    ensures content == "" ==> lines == []
    ensures Join(lines, "\n") + (if EndsWith(content, "\n") then "\n" else "") == content
  {
    var parts := Split(content, '\n');
    JoinSplit(content, '\n');
    if parts[|parts| - 1] == "" then
      JoinDropLast(parts, "\n");
      parts[..|parts| - 1]
    else
      JoinLastNonEmpty(parts, '\n');
      parts
  }

  lemma {:induction false} JoinDropLast(parts: seq<string>, sep: string)
    requires |parts| >= 1 && parts[|parts| - 1] == ""
    ensures |parts| == 1 ==> Join(parts, sep) == ""
    ensures |parts| >= 2 ==> Join(parts, sep) == Join(parts[..|parts| - 1], sep) + sep
    decreases |parts|
  {
    if |parts| > 2 {
      JoinDropLast(parts[1..], sep);
      assert parts[1..][..|parts| - 2] == parts[..|parts| - 1][1..];
    }
  }

  lemma {:induction false} JoinLastNonEmpty(parts: seq<string>, sep: char)
    requires |parts| >= 1 && parts[|parts| - 1] != ""
    ensures !EndsWith(Join(parts, [sep]), "\n") || sep != '\n' || parts[|parts| - 1][|parts[|parts| - 1]| - 1] == '\n'
    ensures EndsWith(Join(parts, [sep]), [parts[|parts| - 1][|parts[|parts| - 1]| - 1]])
    decreases |parts|
  {
    if |parts| > 1 {
      JoinLastNonEmpty(parts[1..], sep);
      var t := Join(parts[1..], [sep]);
      assert Join(parts, [sep]) == parts[0] + [sep] + t;
    }
  }

  lemma {:induction false} UnlinesJoin(lines: seq<string>)
    ensures Unlines(lines) == Join(lines + [""], "\n")
    decreases |lines|
  {
    if lines != [] {
      UnlinesJoin(lines[1..]);
      assert (lines + [""])[1..] == lines[1..] + [""];
    }
  }

  /** Reading back a file written line by line gives the lines written. */
  lemma FileLinesUnlines(lines: seq<string>)
    requires forall i :: 0 <= i < |lines| ==> '\n' !in lines[i]
    ensures FileLines(Unlines(lines)) == lines
  {
    var parts := lines + [""];
    UnlinesJoin(lines);
    assert forall i :: 0 <= i < |parts| ==> '\n' !in parts[i] by {
      forall i | 0 <= i < |parts| ensures '\n' !in parts[i] {
        if i < |lines| { assert parts[i] == lines[i]; }
      }
    }
    SplitJoin(parts, '\n');
    assert parts[..|parts| - 1] == lines;
  }
}

=== FILE: results.dfy ===
/** Failure-carrying wrappers shared by the model. */
module Results {

  /** Present or absent value; an oracle answer of `None` stands for a failed shell call. */
  datatype Option<+T> = None | Some(value: T)

  /** The value of a computation, or the error it raised and did not catch. */
  datatype Result<+T, +E> = Ok(value: T) | Err(error: E)
}

=== FILE: store.dfy ===
/**
 The manuals folder as an abstract store of records keyed by command name,
 the input-file reader, and the batch generator that fills the store.
 */
module Storage {
  import opened Results
  import opened PyText
  import opened Probe
  import opened Manual

  /** The manuals folder: whether it exists, and the record saved for each command. */
  datatype Store = Store(folderExists: bool, records: map<string, Manual>)

  const Folder: string := "manuals_folder"
  const FileSuffix: string := "_manual.xml"

  /** The record a read of the command's file yields; nothing without the folder. */
  function Lookup(st: Store, cmd: string): Option<Manual> {
    if st.folderExists && cmd in st.records then Some(st.records[cmd]) else None
  }

  /**
   `create_xml`: create the folder when it is missing, then write the record
   to the file named after its command, replacing any earlier one.
   */
  function Save(st: Store, m: Manual): (r: Store)
    ensures r.folderExists
    ensures Lookup(r, m.name) == Some(m)
    ensures forall other :: other != m.name ==> Lookup(r, other) == Lookup(st, other)
  {
    Store(true, (if st.folderExists then st.records else map[])[m.name := m])
  }

  /** Saving twice under one name keeps only the second record. */
  lemma SaveOverwrites(st: Store, a: Manual, b: Manual)
    requires a.name == b.name
    ensures Save(Save(st, a), b) == Save(st, b)
  {
  }

  /** Saving a record the store already holds under its name changes nothing. */
  lemma SaveExisting(st: Store, m: Manual)
    requires Lookup(st, m.name) == Some(m)
    ensures Save(st, m) == st
  {
    assert st.records[m.name := m] == st.records;
  }

  /** POSIX `os.path.join` of two components. */
  function PathJoin(dir: string, name: string): string {
    if StartsWith(name, "/") then name
    else if dir == [] || EndsWith(dir, "/") then dir + name
    else dir + "/" + name
  }

  /** Where `create_xml` and `read_existing_content` put a command's record. */
  function ManualPath(cmd: string): string {
    PathJoin(Folder, cmd + FileSuffix)
  }

  /**
   A command without a leading slash lands inside the folder; one with a
   leading slash names an absolute path of its own.
   */
  lemma ManualPathShape(cmd: string)
    ensures !StartsWith(cmd, "/") ==> ManualPath(cmd) == Folder + "/" + cmd + FileSuffix
    ensures StartsWith(cmd, "/") ==> ManualPath(cmd) == cmd + FileSuffix
  {
    if cmd == [] {
      assert (cmd + FileSuffix)[0] == '_';
    } else {
      assert (cmd + FileSuffix)[0] == cmd[0];
    }
  }

  /**
   Distinct commands get distinct path strings. Distinct strings can still
   name one file (`a` and `./a`); the store, keyed by name, does not model that.
   */
  lemma ManualPathInjective(a: string, b: string)
    ensures ManualPath(a) == ManualPath(b) ==> a == b
  {
    ManualPathShape(a);
    ManualPathShape(b);
    var pa, pb := ManualPath(a), ManualPath(b);
    if pa == pb {
      if StartsWith(a, "/") && StartsWith(b, "/") {
        assert a == pa[..|pa| - |FileSuffix|] == b;
      } else if !StartsWith(a, "/") && !StartsWith(b, "/") {
        assert a == pa[|Folder| + 1..|pa| - |FileSuffix|];
        assert b == pb[|Folder| + 1..|pb| - |FileSuffix|];
      }
    }
  }

  /**
   The text an element holds once `create_xml` has written it and ElementTree
   parses the file again: an empty string is written as an empty element,
   whose text reads back as `None`.
   */
  function ReadBackText(text: string): Option<string> {
    if text == "" then None else Some(text)
  }

  /** What `read_existing_content` returns: the record, or the "not found" message. */
  datatype Existing = Found(record: Manual) | Missing(message: string)

  function ReadExisting(st: Store, cmd: string): Existing {
    match Lookup(st, cmd)
    case Some(m) => Found(m)
    case None => Missing(ManualPath(cmd) + " not found")
  }

  /**
   Reading finds exactly the saved records; a miss reports the path that was
   tried: inside the folder for an ordinary name, the name itself for one
   starting with `/`.
   */
  lemma ReadExistingMeaning(st: Store, m: Manual, cmd: string)
    ensures ReadExisting(Save(st, m), m.name) == Found(m)
    ensures ReadExisting(st, cmd).Found? <==> st.folderExists && cmd in st.records
    ensures ReadExisting(st, cmd).Missing? && !StartsWith(cmd, "/") ==>
      ReadExisting(st, cmd).message == Folder + "/" + cmd + FileSuffix + " not found"
    ensures ReadExisting(st, cmd).Missing? && StartsWith(cmd, "/") ==>
      ReadExisting(st, cmd).message == cmd + FileSuffix + " not found"
  {
    ManualPathShape(cmd);
  }

  // ---------------------------------------------------------------------
  // The input file

  function StripAll(lines: seq<string>): (cmds: seq<string>)
    ensures |cmds| == |lines|
    ensures forall i :: 0 <= i < |lines| ==> cmds[i] == Strip(lines[i])
  {
    if lines == [] then [] else [Strip(lines[0])] + StripAll(lines[1..])
  }

  /** Every stripped line is trimmed. */
  lemma StripAllTrims(lines: seq<string>)
    ensures forall i :: 0 <= i < |lines| ==> Trimmed(StripAll(lines)[i])
  {
    forall i | 0 <= i < |lines| ensures Trimmed(StripAll(lines)[i]) {
      StripSpec(lines[i]);
    }
  }

  /**
   `read_commands_from_file`: `None` stands for a file that does not exist;
   otherwise every line, blank ones included, stripped of surrounding
   whitespace.
   */
  function ReadCommands(content: Option<string>, inputFile: string): (r: Result<seq<string>, string>)
    ensures r.Err? <==> content.None?
    ensures r.Ok? ==> |r.value| == |FileLines(content.value)|
    ensures r.Ok? ==> forall i :: 0 <= i < |r.value| ==> Trimmed(r.value[i])
  {
    match content
    case None => Err("File not found: " + inputFile)
    case Some(text) =>
      StripAllTrims(FileLines(text));
      Ok(StripAll(FileLines(text)))
  }

  /** One command per line of the file, each with no surrounding whitespace. */
  lemma ReadCommandsMeaning(content: Option<string>, inputFile: string)
    ensures ReadCommands(content, inputFile).Err? <==> content.None?
    ensures content.None? ==> ReadCommands(content, inputFile) == Err("File not found: " + inputFile)
    ensures ReadCommands(content, inputFile).Ok? ==>
      var cmds := ReadCommands(content, inputFile).value;
      && |cmds| == |FileLines(content.value)|
      && forall i :: 0 <= i < |cmds| ==> Trimmed(cmds[i]) && cmds[i] == Strip(FileLines(content.value)[i])
  {
    if content.Some? {
      var cmds := ReadCommands(content, inputFile).value;
      forall i | 0 <= i < |cmds| ensures Trimmed(cmds[i]) {
        StripSpec(FileLines(content.value)[i]);
      }
    }
  }

  /** Stripping leaves trimmed names alone. */
  lemma StripAllTrimmed(names: seq<string>)
    requires forall i :: 0 <= i < |names| ==> Trimmed(names[i])
    ensures StripAll(names) == names
  {
    var cmds := StripAll(names);
    forall i | 0 <= i < |names| ensures cmds[i] == names[i] {
      StripUnique([], names[i], []);
      assert [] + names[i] + [] == names[i];
    }
  }

  /** A file written one trimmed name per line reads back as those names. */
  lemma ReadCommandsRoundTrip(names: seq<string>, inputFile: string)
    requires forall i :: 0 <= i < |names| ==> Trimmed(names[i]) && '\n' !in names[i]
    ensures ReadCommands(Some(Unlines(names)), inputFile) == Ok(names)
  {
    FileLinesUnlines(names);
    assert ReadCommands(Some(Unlines(names)), inputFile) == Ok(StripAll(names));
    StripAllTrimmed(names);
  }

  // ---------------------------------------------------------------------
  // Batch generation

  /** What `generate_manuals` ends with. */
  datatype Outcome =
    | Generated(commands: seq<string>)
    | InputMissing(message: string)
    | Raised(error: ProbeError)

  /** Building one command's record, with the host's answers for that command fixed. */
  function Builder(probe: string -> Host): string -> Result<Manual, ProbeError> {
    c => GenerateManual(c, probe(c))
  }

  /** A builder whose records carry the name they were built for. */
  ghost predicate NamesRecords(build: string -> Result<Manual, ProbeError>) {
    forall c :: build(c).Ok? ==> build(c).value.name == c
  }

  lemma BuilderNamesRecords(probe: string -> Host)
    ensures NamesRecords(Builder(probe))
  {
    forall c | Builder(probe)(c).Ok? ensures Builder(probe)(c).value.name == c {
      GenerateManualFields(c, probe(c));
    }
  }

  /**
   The loop of `generate_manuals`: build and save each command's record in
   order; an exception stops the loop and leaves the records already saved.
   */
  function GenerateAll(st: Store, build: string -> Result<Manual, ProbeError>, cmds: seq<string>): (Store, Option<ProbeError>)
    decreases |cmds|
  {
    if cmds == [] then (st, None)
    else
      match build(cmds[0])
      case Err(e) => (st, Some(e))
      case Ok(m) => GenerateAll(Save(st, m), build, cmds[1..])
  }

  /** `generate_manuals`, with the store it leaves behind. */
  function GenerateManuals(content: Option<string>, inputFile: string, st: Store, probe: string -> Host): (Store, Outcome) {
    match ReadCommands(content, inputFile)
    case Err(message) => (st, InputMissing(message))
    case Ok(cmds) =>
      var (st', raised) := GenerateAll(st, Builder(probe), cmds);
      (st', if raised.None? then Generated(cmds) else Raised(raised.value))
  }

  predicate AllBuild(build: string -> Result<Manual, ProbeError>, cmds: seq<string>) {
    forall i :: 0 <= i < |cmds| ==> build(cmds[i]).Ok?
  }

  /** The loop finishes exactly when every command's record can be built. */
  lemma {:induction false} GenerateAllFinishes(st: Store, build: string -> Result<Manual, ProbeError>, cmds: seq<string>)
    ensures GenerateAll(st, build, cmds).1.None? <==> AllBuild(build, cmds)
    decreases |cmds|
  {
    if cmds != [] {
      var c := cmds[0];
      if build(c).Ok? {
        GenerateAllFinishes(Save(st, build(c).value), build, cmds[1..]);
        assert AllBuild(build, cmds) <==> AllBuild(build, cmds[1..]) by {
          assert forall i :: 1 <= i < |cmds| ==> cmds[i] == cmds[1..][i - 1];
          assert forall i :: 0 <= i < |cmds| - 1 ==> cmds[1..][i] == cmds[i + 1];
        }
      }
    }
  }

  /**
   After a finished loop every listed command reads back as the record built
   for it, the folder exists if anything was written, and unlisted commands
   read as before.
   */
  lemma {:induction false} GenerateAllStores(st: Store, build: string -> Result<Manual, ProbeError>, cmds: seq<string>)
    requires NamesRecords(build) && AllBuild(build, cmds)
    ensures var st' := GenerateAll(st, build, cmds).0;
      && (st'.folderExists <==> st.folderExists || cmds != [])
      && (forall i :: 0 <= i < |cmds| ==> Lookup(st', cmds[i]) == Some(build(cmds[i]).value))
      && (forall c :: c !in cmds ==> Lookup(st', c) == Lookup(st, c))
    decreases |cmds|
  {
    if cmds != [] {
      var c := cmds[0];
      var m := build(c).value;
      var st1 := Save(st, m);
      var rest := cmds[1..];
      assert AllBuild(build, rest) by {
        assert forall i :: 0 <= i < |rest| ==> rest[i] == cmds[i + 1];
      }
      GenerateAllStores(st1, build, rest);
      var st' := GenerateAll(st1, build, rest).0;
      assert st' == GenerateAll(st, build, cmds).0;
      forall i | 0 <= i < |cmds| ensures Lookup(st', cmds[i]) == Some(build(cmds[i]).value) {
        if i > 0 {
          assert cmds[i] == rest[i - 1];
        } else if c in rest {
          var j :| 0 <= j < |rest| && rest[j] == c;
        }
      }
      forall x | x !in cmds ensures Lookup(st', x) == Lookup(st, x) {
        assert x != c && x !in rest;
      }
    }
  }

  /**
   An exception at the k-th command leaves exactly the store the first k
   commands produce, and reports that command's error.
   */
  lemma {:induction false} GenerateAllStops(st: Store, build: string -> Result<Manual, ProbeError>, cmds: seq<string>, k: nat)
    requires k < |cmds| && AllBuild(build, cmds[..k]) && build(cmds[k]).Err?
    ensures GenerateAll(st, build, cmds) == (GenerateAll(st, build, cmds[..k]).0, Some(build(cmds[k]).error))
    decreases k
  {
    if k > 0 {
      var c := cmds[0];
      var rest := cmds[1..];
      var prefix := cmds[..k];
      assert prefix[0] == c && build(c).Ok?;
      var m := build(c).value;
      assert rest[..k - 1] == prefix[1..];
      assert rest[k - 1] == cmds[k];
      assert AllBuild(build, rest[..k - 1]) by {
        forall i | 0 <= i < k - 1 ensures build(prefix[1..][i]).Ok? {
          assert prefix[1..][i] == prefix[i + 1];
        }
      }
      GenerateAllStops(Save(st, m), build, rest, k - 1);
    }
  }

  /** A loop over records the store already holds leaves it as it is. */
  lemma {:induction false} GenerateAllFixed(st: Store, build: string -> Result<Manual, ProbeError>, cmds: seq<string>)
    requires NamesRecords(build) && AllBuild(build, cmds)
    requires forall i :: 0 <= i < |cmds| ==> Lookup(st, cmds[i]) == Some(build(cmds[i]).value)
    ensures GenerateAll(st, build, cmds) == (st, None)
    decreases |cmds|
  {
    if cmds != [] {
      var rest := cmds[1..];
      assert forall i :: 0 <= i < |rest| ==> rest[i] == cmds[i + 1];
      SaveExisting(st, build(cmds[0]).value);
      GenerateAllFixed(st, build, rest);
    }
  }

  /**
   Generating again from the same input file, with the same answers from the
   host, leaves the manuals folder exactly as the first run left it.
   */
  lemma RegenerateIdempotent(content: Option<string>, inputFile: string, st: Store, probe: string -> Host)
    ensures GenerateManuals(content, inputFile, st, probe).1.Generated? ==>
      var st1 := GenerateManuals(content, inputFile, st, probe).0;
      GenerateManuals(content, inputFile, st1, probe) == (st1, GenerateManuals(content, inputFile, st, probe).1)
  {
    if GenerateManuals(content, inputFile, st, probe).1.Generated? {
      var cmds := ReadCommands(content, inputFile).value;
      var build := Builder(probe);
      GenerateAllFinishes(st, build, cmds);
      BuilderNamesRecords(probe);
      GenerateAllStores(st, build, cmds);
      GenerateAllFixed(GenerateAll(st, build, cmds).0, build, cmds);
    }
  }
}

=== FILE: verifier.dfy ===
/**
 The manual verifier: rebuilding each command's record and reporting, field
 by field, how it differs from the stored one; and the selection lookup the
 interface uses to show a stored record.
 */
module Verifier {
  import opened Results
  import opened PyText
  import opened Probe
  import opened Manual
  import opened Storage

  // ---------------------------------------------------------------------
  // Comparing one record

  const VerifiedPhrase: string := "verified successfully"

  /** The opening of a report: a newline, the stored name and a colon. */
  function Header(name: string): string {
    "\n" + name + ": "
  }

  /** The report for a record that matched its rebuilt counterpart. */
  function Verified(name: string): string {
    Header(name) + VerifiedPhrase
  }

  /** The paragraph reporting one changed field with both of its values. */
  function DiffBlock(f: Field, e: Manual, g: Manual): string {
    KeyName(f) + ": Content has changed\n\n"
      + "  Existing Content: " + Get(e, f) + "\n\n"
      + "  Generated Content: " + Get(g, f) + "\n\n"
  }

  /** The comparison loop: the report so far, and whether some field differed. */
  function CompareFields(fs: seq<Field>, e: Manual, g: Manual, msg: string, error: bool): (string, bool)
    decreases |fs|
  {
    if fs == [] then (msg, error)
    else if Get(e, fs[0]) != Get(g, fs[0]) then
      CompareFields(fs[1..], e, g, msg + DiffBlock(fs[0], e, g), true)
    else
      CompareFields(fs[1..], e, g, msg, error)
  }

  /** `compare_content` */
  function CompareContent(existing: Existing, generated: Manual): string {
    match existing
    case Missing(message) => message
    case Found(e) =>
      var (msg, error) := CompareFields(Keys(e), e, generated, Header(e.name), false);
      if error then msg else msg + VerifiedPhrase
  }

  /** The fields, in the given order, on which the two records disagree. */
  function Changed(fs: seq<Field>, e: Manual, g: Manual): (r: seq<Field>)
    ensures forall f :: f in r <==> f in fs && Get(e, f) != Get(g, f)
    decreases |fs|
  {
    if fs == [] then []
    else if Get(e, fs[0]) != Get(g, fs[0]) then [fs[0]] + Changed(fs[1..], e, g)
    else Changed(fs[1..], e, g)
  }

  /** `r` is `fs` with some elements left out: what remains keeps its order. */
  predicate Subsequence(r: seq<Field>, fs: seq<Field>)
    decreases |fs|
  {
    if r == [] then true
    else if fs == [] then false
    else if r[0] == fs[0] then Subsequence(r[1..], fs[1..])
    else Subsequence(r, fs[1..])
  }

  /** The changed keys are the given keys with the unchanged ones left out, in the given order. */
  lemma {:induction false} ChangedInOrder(fs: seq<Field>, e: Manual, g: Manual)
    ensures Subsequence(Changed(fs, e, g), fs)
    decreases |fs|
  {
    if fs != [] {
      ChangedInOrder(fs[1..], e, g);
      if Get(e, fs[0]) != Get(g, fs[0]) {
        var r := Changed(fs, e, g);
        assert r[0] == fs[0] && r[1..] == Changed(fs[1..], e, g);
      } else {
        SubsequenceSkip(Changed(fs[1..], e, g), fs);
      }
    }
  }

  /** No key occurs twice. */
  predicate Distinct(fs: seq<Field>) {
    forall i, j :: 0 <= i < j < |fs| ==> fs[i] != fs[j]
  }

  /** Distinct keys give distinct changed keys: no key is reported twice. */
  lemma {:induction false} ChangedDistinct(fs: seq<Field>, e: Manual, g: Manual)
    requires Distinct(fs)
    ensures Distinct(Changed(fs, e, g))
    decreases |fs|
  {
    if fs != [] {
      var rest := fs[1..];
      assert Distinct(rest) by {
        forall i, j | 0 <= i < j < |rest| ensures rest[i] != rest[j] {
          assert rest[i] == fs[i + 1] && rest[j] == fs[j + 1];
        }
      }
      ChangedDistinct(rest, e, g);
      var r' := Changed(rest, e, g);
      if Get(e, fs[0]) != Get(g, fs[0]) {
        assert fs[0] !in rest by {
          forall k | 0 <= k < |rest| ensures rest[k] != fs[0] {
            assert rest[k] == fs[k + 1];
          }
        }
        assert fs[0] !in r';
        var r := [fs[0]] + r';
        assert Changed(fs, e, g) == r;
        forall i, j | 0 <= i < j < |r| ensures r[i] != r[j] {
          if i == 0 {
            assert r[j] == r'[j - 1] && r'[j - 1] in r';
          } else {
            assert r[i] == r'[i - 1] && r[j] == r'[j - 1];
            assert r'[i - 1] != r'[j - 1];
          }
        }
      } else {
        assert Changed(fs, e, g) == r';
      }
    }
  }

  /** Leaving out the first element keeps a subsequence of the rest a subsequence of the whole. */
  lemma SubsequenceSkip(r: seq<Field>, fs: seq<Field>)
    requires fs != [] && Subsequence(r, fs[1..])
    ensures Subsequence(r, fs)
    decreases |fs|, 0
  {
    if r != [] && r[0] == fs[0] {
      SubsequenceTail(r, fs[1..]);
    }
  }

  /** Dropping the first element of a subsequence leaves a subsequence. */
  lemma {:induction false} SubsequenceTail(r: seq<Field>, fs: seq<Field>)
    requires r != [] && Subsequence(r, fs)
    ensures Subsequence(r[1..], fs)
    decreases |fs|, 1
  {
    if r[0] != fs[0] {
      SubsequenceTail(r, fs[1..]);
      SubsequenceSkip(r[1..], fs);
    } else if r[1..] != [] {
      SubsequenceTail(r[1..], fs[1..]);
      SubsequenceSkip(r[1..], fs);
    }
  }

  /** The blocks for the given fields, one after another. */
  function Blocks(fs: seq<Field>, e: Manual, g: Manual): string
    decreases |fs|
  {
    if fs == [] then "" else DiffBlock(fs[0], e, g) + Blocks(fs[1..], e, g)
  }

  /**
   The loop appends one block per changed field, in key order, and raises
   the flag exactly when some field changed.
   */
  lemma {:induction false} CompareFieldsBlocks(fs: seq<Field>, e: Manual, g: Manual, msg: string, error: bool)
    ensures CompareFields(fs, e, g, msg, error) ==
      (msg + Blocks(Changed(fs, e, g), e, g), error || Changed(fs, e, g) != [])
    decreases |fs|
  {
    if fs == [] {
      assert msg + Blocks([], e, g) == msg;
    } else {
      var f := fs[0];
      if Get(e, f) != Get(g, f) {
        var rest := Changed(fs[1..], e, g);
        CompareFieldsBlocks(fs[1..], e, g, msg + DiffBlock(f, e, g), true);
        assert Changed(fs, e, g) == [f] + rest;
        assert ([f] + rest)[1..] == rest;
        var d := DiffBlock(f, e, g);
        assert Blocks([f] + rest, e, g) == d + Blocks(rest, e, g);
        Associative(msg, d, Blocks(rest, e, g));
      } else {
        CompareFieldsBlocks(fs[1..], e, g, msg, error);
        assert Changed(fs, e, g) == Changed(fs[1..], e, g);
      }
    }
  }

  lemma Associative(a: string, b: string, c: string)
    ensures a + b + c == a + (b + c)
  {
  }

  lemma BlocksOne(f: Field, e: Manual, g: Manual)
    ensures Blocks([f], e, g) == DiffBlock(f, e, g)
  {
    var d := DiffBlock(f, e, g);
    assert [f][1..] == [];
    assert Blocks([f], e, g) == d + Blocks([], e, g);
    assert d + "" == d;
  }

  /** No key differs exactly when the records are equal. */
  lemma NothingChangedIff(e: Manual, g: Manual)
    ensures Changed(Keys(e), e, g) == [] <==> e == g
  {
    FieldsShape();
    SameFields(e, g);
    if Changed(Keys(e), e, g) == [] {
      forall f: Field ensures Get(e, f) == Get(g, f) {
        assert f in Keys(e) && f !in Changed(Keys(e), e, g);
      }
    } else {
      var f := Changed(Keys(e), e, g)[0];
      assert f in Changed(Keys(e), e, g);
    }
  }

  /**
   A missing record passes its message through; a present one is reported
   as its header, the blocks of the changed fields in key order, and the
   verified phrase exactly when nothing changed.
   */
  lemma CompareContentMeaning(existing: Existing, g: Manual)
    ensures existing.Missing? ==> CompareContent(existing, g) == existing.message
    ensures existing.Found? ==>
      var e := existing.record;
      CompareContent(existing, g) ==
        Header(e.name) + Blocks(Changed(Keys(e), e, g), e, g) + (if e == g then VerifiedPhrase else "")
  {
    if existing.Found? {
      var e := existing.record;
      CompareFieldsBlocks(Keys(e), e, g, Header(e.name), false);
      NothingChangedIff(e, g);
    }
  }

  /** A present record is reported as verified exactly when nothing changed. */
  lemma VerifiedIff(e: Manual, g: Manual)
    ensures CompareContent(Found(e), g) == Verified(e.name) <==> e == g
  {
    CompareContentMeaning(Found(e), g);
    if e != g {
      NothingChangedIff(e, g);
      var h := Header(e.name);
      var b := Blocks(Changed(Keys(e), e, g), e, g);
      assert CompareContent(Found(e), g) == h + b + "";
      BlocksHead(Changed(Keys(e), e, g), e, g);
      assert (h + b + "")[|h|] == b[0];
      assert Verified(e.name)[|h|] == 'v';
    }
  }

  /** No key name is empty or starts with a lower-case v. */
  lemma KeyInitial(f: Field)
    ensures |KeyName(f)| > 0 && KeyName(f)[0] != 'v'
  {
    match f
    case NameField =>
    case DescriptionField =>
    case VersionField =>
    case ExampleField =>
    case RelatedField =>
    case LinkField =>
    case RecommendedField =>
  }

  /** A non-empty report opens with a key name, and no key name starts with a lower-case v. */
  lemma BlocksHead(fs: seq<Field>, e: Manual, g: Manual)
    requires fs != []
    ensures |Blocks(fs, e, g)| > 0 && Blocks(fs, e, g)[0] == KeyName(fs[0])[0] != 'v'
  {
    var k := KeyName(fs[0]);
    KeyInitial(fs[0]);
    var rest := ": Content has changed\n\n" + "  Existing Content: " + Get(e, fs[0]) + "\n\n"
      + "  Generated Content: " + Get(g, fs[0]) + "\n\n";
    assert DiffBlock(fs[0], e, g) == k + rest;
    assert Blocks(fs, e, g) == k + rest + Blocks(fs[1..], e, g);
  }

  /** Only one key of the list differs when every other one agrees. */
  lemma {:induction false} ChangedOnly(fs: seq<Field>, e: Manual, g: Manual, f: Field)
    requires forall i, j :: 0 <= i < j < |fs| ==> fs[i] != fs[j]
    requires f in fs && Get(e, f) != Get(g, f)
    requires forall h: Field :: h != f ==> Get(e, h) == Get(g, h)
    ensures Changed(fs, e, g) == [f]
    decreases |fs|
  {
    var rest := fs[1..];
    assert forall i, j :: 0 <= i < j < |rest| ==> rest[i] != rest[j] by {
      forall i, j | 0 <= i < j < |rest| ensures rest[i] != rest[j] {
        assert rest[i] == fs[i + 1] && rest[j] == fs[j + 1];
      }
    }
    if fs[0] == f {
      forall h | h in rest ensures h != f {
        var j :| 0 <= j < |rest| && rest[j] == h;
        assert fs[j + 1] == h;
      }
      ChangedNone(rest, e, g);
      assert Changed(fs, e, g) == [f] + Changed(rest, e, g);
    } else {
      ChangedOnly(rest, e, g, f);
      assert Changed(fs, e, g) == Changed(rest, e, g);
    }
  }

  lemma {:induction false} ChangedNone(fs: seq<Field>, e: Manual, g: Manual)
    requires forall h :: h in fs ==> Get(e, h) == Get(g, h)
    ensures Changed(fs, e, g) == []
    decreases |fs|
  {
    if fs != [] {
      assert fs[0] in fs;
      assert forall h :: h in fs[1..] ==> h in fs;
      ChangedNone(fs[1..], e, g);
    }
  }

  /**
   When exactly one field drifted, the report names that field alone and
   shows its stored and rebuilt values.
   */
  lemma SingleFieldDrift(e: Manual, g: Manual, f: Field)
    requires Get(e, f) != Get(g, f)
    requires forall h: Field :: h != f ==> Get(e, h) == Get(g, h)
    ensures CompareContent(Found(e), g) == Header(e.name) + DiffBlock(f, e, g)
  {
    var h := Header(e.name);
    assert Changed(Keys(e), e, g) == [f] by {
      FieldsDistinct();
      ChangedOnly(Keys(e), e, g, f);
    }
    assert CompareFields(Keys(e), e, g, h, false) == (h + DiffBlock(f, e, g), true) by {
      CompareFieldsBlocks(Keys(e), e, g, h, false);
      BlocksOne(f, e, g);
    }
  }

  lemma FieldsDistinct()
    ensures forall f: Field :: f in Fields
    ensures forall i, j :: 0 <= i < j < |Fields| ==> Fields[i] != Fields[j]
  {
    FieldsShape();
    forall i, j | 0 <= i < j < |Fields| ensures Fields[i] != Fields[j] {
      assert KeyName(Fields[i]) != KeyName(Fields[j]);
    }
  }

  // ---------------------------------------------------------------------
  // Comparing a record parsed back from its file, as the program does it

  /** How an f-string shows a value read back from a file: `None` for a missing text. */
  function Shown(t: Option<string>): string {
    match t
    case None => "None"
    case Some(s) => s
  }

  /** One changed field's paragraph when the stored value was parsed back from the file. */
  function DiffBlockAsWritten(f: Field, e: Manual, g: Manual): string {
    KeyName(f) + ": Content has changed\n\n"
      + "  Existing Content: " + Shown(ReadBackText(Get(e, f))) + "\n\n"
      + "  Generated Content: " + Get(g, f) + "\n\n"
  }

  /** The comparison loop over the values parsed back from the stored file. */
  function CompareFieldsAsWritten(fs: seq<Field>, e: Manual, g: Manual, msg: string, error: bool): (string, bool)
    decreases |fs|
  {
    if fs == [] then (msg, error)
    else if ReadBackText(Get(e, fs[0])) != Some(Get(g, fs[0])) then
      CompareFieldsAsWritten(fs[1..], e, g, msg + DiffBlockAsWritten(fs[0], e, g), true)
    else
      CompareFieldsAsWritten(fs[1..], e, g, msg, error)
  }

  /** The report's opening when the name, too, was parsed back from the file. */
  function StoredHeader(name: string): string {
    "\n" + Shown(ReadBackText(name)) + ": "
  }

  /** `compare_content` on the file that holds `e`, every field parsed back from its element. */
  function CompareContentAsWritten(e: Manual, g: Manual): string {
    var (msg, error) := CompareFieldsAsWritten(Keys(e), e, g, StoredHeader(e.name), false);
    if error then msg else msg + VerifiedPhrase
  }

  /** A changed field's paragraph opens with its key name. */
  lemma BlockAsWrittenHead(f: Field, e: Manual, g: Manual)
    ensures |DiffBlockAsWritten(f, e, g)| > 0 && DiffBlockAsWritten(f, e, g)[0] != 'v'
  {
    KeyInitial(f);
    var rest := ": Content has changed\n\n" + "  Existing Content: " + Shown(ReadBackText(Get(e, f))) + "\n\n"
      + "  Generated Content: " + Get(g, f) + "\n\n";
    assert DiffBlockAsWritten(f, e, g) == KeyName(f) + rest;
  }

  /** The loop only appends to the report it was given, and appends nothing while no field differs. */
  lemma {:induction false} AsWrittenPrefix(fs: seq<Field>, e: Manual, g: Manual, msg: string, error: bool)
    ensures StartsWith(CompareFieldsAsWritten(fs, e, g, msg, error).0, msg)
    ensures !CompareFieldsAsWritten(fs, e, g, msg, error).1 ==> CompareFieldsAsWritten(fs, e, g, msg, error).0 == msg
    ensures error ==> CompareFieldsAsWritten(fs, e, g, msg, error).1
    decreases |fs|
  {
    if fs != [] {
      var differs := ReadBackText(Get(e, fs[0])) != Some(Get(g, fs[0]));
      var msg' := if differs then msg + DiffBlockAsWritten(fs[0], e, g) else msg;
      AsWrittenPrefix(fs[1..], e, g, msg', error || differs);
      assert StartsWith(msg', msg);
    }
  }

  /** The flag goes up exactly when some field's parsed-back value differs from the generated one. */
  lemma {:induction false} AsWrittenFlag(fs: seq<Field>, e: Manual, g: Manual, msg: string, error: bool)
    ensures CompareFieldsAsWritten(fs, e, g, msg, error).1 <==>
      error || exists i :: 0 <= i < |fs| && ReadBackText(Get(e, fs[i])) != Some(Get(g, fs[i]))
    decreases |fs|
  {
    if fs != [] {
      var rest := fs[1..];
      var differs := ReadBackText(Get(e, fs[0])) != Some(Get(g, fs[0]));
      var msg' := if differs then msg + DiffBlockAsWritten(fs[0], e, g) else msg;
      AsWrittenFlag(rest, e, g, msg', error || differs);
      assert forall i :: 0 <= i < |rest| ==> rest[i] == fs[i + 1];
      if !differs {
        assert (exists i :: 0 <= i < |fs| && ReadBackText(Get(e, fs[i])) != Some(Get(g, fs[i]))) ==>
          exists i :: 0 <= i < |rest| && ReadBackText(Get(e, rest[i])) != Some(Get(g, rest[i]));
      }
    }
  }

  /** When the flag starts down and goes up, a key name follows the report given. */
  lemma {:induction false} AsWrittenFirst(fs: seq<Field>, e: Manual, g: Manual, msg: string)
    requires CompareFieldsAsWritten(fs, e, g, msg, false).1
    ensures var r := CompareFieldsAsWritten(fs, e, g, msg, false).0;
      |r| > |msg| && r[|msg|] != 'v'
    decreases |fs|
  {
    if ReadBackText(Get(e, fs[0])) != Some(Get(g, fs[0])) {
      var msg' := msg + DiffBlockAsWritten(fs[0], e, g);
      AsWrittenPrefix(fs[1..], e, g, msg', true);
      BlockAsWrittenHead(fs[0], e, g);
      assert msg'[|msg|] != 'v';
      assert CompareFieldsAsWritten(fs, e, g, msg, false).0[..|msg'|] == msg';
    } else {
      AsWrittenFirst(fs[1..], e, g, msg);
    }
  }

  /** A record whose fields are all non-empty reads back as written and, compared with itself, verifies. */
  lemma AsWrittenFullVerifies(m: Manual)
    requires forall f :: Get(m, f) != ""
    ensures CompareContentAsWritten(m, m) == Verified(m.name)
  {
    var h := StoredHeader(m.name);
    assert Get(m, NameField) != "";
    assert h == Header(m.name);
    AsWrittenFlag(Keys(m), m, m, h, false);
    AsWrittenPrefix(Keys(m), m, m, h, false);
  }

  /** An empty field raises the flag: it reads back as `None`. */
  lemma AsWrittenEmptyRaises(m: Manual, f: Field)
    requires Get(m, f) == ""
    ensures CompareFieldsAsWritten(Keys(m), m, m, StoredHeader(m.name), false).1
  {
    FieldsShape();
    assert f in Fields;
    var i :| 0 <= i < |Fields| && Fields[i] == f;
    assert ReadBackText(Get(m, Keys(m)[i])) != Some(Get(m, Keys(m)[i]));
    AsWrittenFlag(Keys(m), m, m, StoredHeader(m.name), false);
  }

  /** A report that continues past the stored header with anything but a v is not the verified one. */
  lemma NotVerifiedAfterHeader(name: string, r: string)
    requires StartsWith(r, StoredHeader(name)) && |r| > |StoredHeader(name)| && r[|StoredHeader(name)|] != 'v'
    ensures r != Verified(name)
  {
    var h := StoredHeader(name);
    if name == "" {
      assert r[1] == h[1] == 'N';
      assert Verified(name)[1] == ':';
    } else {
      assert h == Header(name);
      assert Verified(name)[|h|] == 'v';
    }
  }

  /** A record with an empty field, compared with itself as written, reports a change. */
  lemma AsWrittenEmptyDrifts(m: Manual, f: Field)
    requires Get(m, f) == ""
    ensures CompareContentAsWritten(m, m) != Verified(m.name)
  {
    var h := StoredHeader(m.name);
    AsWrittenEmptyRaises(m, f);
    AsWrittenFirst(Keys(m), m, m, h);
    AsWrittenPrefix(Keys(m), m, m, h, false);
    NotVerifiedAfterHeader(m.name, CompareFieldsAsWritten(Keys(m), m, m, h, false).0);
  }

  /**
   As written, a record compared with itself is reported as verified exactly
   when none of its fields is empty: an empty field reads back as `None`,
   which differs from the empty string it was written from.
   */
  lemma AsWrittenSelfVerifiedIff(m: Manual)
    ensures CompareContentAsWritten(m, m) == Verified(m.name) <==> forall f :: Get(m, f) != ""
  {
    if forall f :: Get(m, f) != "" {
      AsWrittenFullVerifies(m);
    } else {
      var f :| Get(m, f) == "";
      AsWrittenEmptyDrifts(m, f);
    }
  }

  /**
   A command whose man page has no DESCRIPTION header gets an empty
   description, so, as written, verifying the record just generated for it
   reports the description as changed.
   */
  lemma HeaderlessManPageDrifts(cmd: string, host: Host)
    requires host.man.Some?
    requires forall j :: 0 <= j < |Lines(host.man.value)| ==> Strip(Lines(host.man.value)[j]) != DescriptionHeader
    ensures GenerateManual(cmd, host).Ok? ==>
      var m := GenerateManual(cmd, host).value;
      CompareContentAsWritten(m, m) != Verified(cmd)
  {
    if GenerateManual(cmd, host).Ok? {
      var m := GenerateManual(cmd, host).value;
      NoHeaderEmptyDescription(cmd, host);
      GenerateManualFields(cmd, host);
      assert Get(m, DescriptionField) == "";
      AsWrittenSelfVerifiedIff(m);
    }
  }

  // ---------------------------------------------------------------------
  // Verifying a list of commands

  const NotGenerated: string := "manuals are not generated *_*"

  /**
   The loop of `verify_manuals`: read the stored record, rebuild it and
   compare, for each command in order; an exception escapes.
   */
  function VerifyEach(st: Store, build: string -> Result<Manual, ProbeError>, cmds: seq<string>): Result<seq<string>, ProbeError>
    decreases |cmds|
  {
    if cmds == [] then Ok([])
    else
      var existing := ReadExisting(st, cmds[0]);
      match build(cmds[0])
      case Err(e) => Err(e)
      case Ok(g) =>
        match VerifyEach(st, build, cmds[1..])
        case Err(e) => Err(e)
        case Ok(rest) => Ok([CompareContent(existing, g)] + rest)
  }

  /** `verify_manuals` */
  function VerifyManuals(st: Store, probe: string -> Host, cmds: seq<string>): Result<seq<string>, ProbeError> {
    if !st.folderExists then Ok([NotGenerated]) else VerifyEach(st, Builder(probe), cmds)
  }

  /**
   Without the folder the answer is the single "not generated" line,
   whatever the commands; with it, one report per command in order, each
   comparing what is stored for it with the record rebuilt from the host.
   */
  lemma VerifyManualsMeaning(st: Store, probe: string -> Host, cmds: seq<string>)
    ensures !st.folderExists ==> VerifyManuals(st, probe, cmds) == Ok([NotGenerated])
    ensures st.folderExists ==>
      (VerifyManuals(st, probe, cmds).Ok? <==> forall i :: 0 <= i < |cmds| ==> GenerateManual(cmds[i], probe(cmds[i])).Ok?)
    ensures st.folderExists && VerifyManuals(st, probe, cmds).Ok? ==>
      var msgs := VerifyManuals(st, probe, cmds).value;
      && |msgs| == |cmds|
      && forall i :: 0 <= i < |cmds| ==>
           msgs[i] == CompareContent(ReadExisting(st, cmds[i]), GenerateManual(cmds[i], probe(cmds[i])).value)
  {
    VerifyEachMeaning(st, Builder(probe), cmds);
  }

  /**
   The loop completes exactly when every record can be rebuilt, and then
   yields one report per command, in order.
   */
  lemma {:induction false} VerifyEachMeaning(st: Store, build: string -> Result<Manual, ProbeError>, cmds: seq<string>)
    ensures VerifyEach(st, build, cmds).Ok? <==> AllBuild(build, cmds)
    ensures VerifyEach(st, build, cmds).Ok? ==>
      var msgs := VerifyEach(st, build, cmds).value;
      && |msgs| == |cmds|
      && forall i :: 0 <= i < |cmds| ==>
           msgs[i] == CompareContent(ReadExisting(st, cmds[i]), build(cmds[i]).value)
    decreases |cmds|
  {
    if cmds != [] {
      var rest := cmds[1..];
      VerifyEachMeaning(st, build, rest);
      assert forall i :: 0 <= i < |rest| ==> rest[i] == cmds[i + 1];
      if build(cmds[0]).Ok? && VerifyEach(st, build, rest).Ok? {
        var msgs := VerifyEach(st, build, cmds).value;
        var tail := VerifyEach(st, build, rest).value;
        assert msgs == [CompareContent(ReadExisting(st, cmds[0]), build(cmds[0]).value)] + tail;
        assert forall i :: 1 <= i < |msgs| ==> msgs[i] == tail[i - 1];
      }
      if !AllBuild(build, rest) {
        var i :| 0 <= i < |rest| && !build(rest[i]).Ok?;
        assert !build(cmds[i + 1]).Ok?;
      }
    }
  }

  /**
   Verifying straight after a finished generation, with the host unchanged,
   reports every command as verified.
   */
  lemma GenerateThenVerify(content: Option<string>, inputFile: string, st: Store, probe: string -> Host)
    requires GenerateManuals(content, inputFile, st, probe).1.Generated?
    ensures var (st', outcome) := GenerateManuals(content, inputFile, st, probe);
      var cmds := outcome.commands;
      cmds != [] ==>
        && VerifyManuals(st', probe, cmds).Ok?
        && |VerifyManuals(st', probe, cmds).value| == |cmds|
        && forall i :: 0 <= i < |cmds| ==> VerifyManuals(st', probe, cmds).value[i] == Verified(cmds[i])
  {
    var cmds := ReadCommands(content, inputFile).value;
    var build := Builder(probe);
    var st' := GenerateAll(st, build, cmds).0;
    GenerateAllFinishes(st, build, cmds);
    BuilderNamesRecords(probe);
    GenerateAllStores(st, build, cmds);
    if cmds != [] {
      VerifyEachMeaning(st', build, cmds);
      forall i | 0 <= i < |cmds|
        ensures CompareContent(ReadExisting(st', cmds[i]), build(cmds[i]).value) == Verified(cmds[i])
      {
        var m := build(cmds[i]).value;
        assert ReadExisting(st', cmds[i]) == Found(m);
        VerifiedIff(m, m);
      }
    }
  }

  // ---------------------------------------------------------------------
  // Showing a stored record

  const ShowAll: string := "Show All Info"

  /** The single-field selections: the label chosen, the title printed and the field shown. */
  const SingleSelections: seq<(string, string, Field)> := [
    ("Show Description", "Command Description", DescriptionField),
    ("Show Version", "Command Version", VersionField),
    ("Show Example", "Command Example", ExampleField),
    ("Show Related Commands", "Command Related Commands", RelatedField),
    ("Show Online Documentation Links", "Command Online Documentation Links", LinkField),
    ("Show Recommended Commands", "Command Recommended Commands", RecommendedField)
  ]

  /** The path `get_info_for_selection` reads, written out without `os.path.join`. */
  function InfoPath(cmd: string): string {
    Folder + "/" + cmd + FileSuffix
  }

  /** One field as the full listing shows it. */
  function InfoEntry(f: Field, m: Manual): string {
    KeyName(f) + ": " + Get(m, f) + "\n\n"
  }

  function InfoEntries(fs: seq<Field>, m: Manual): string
    decreases |fs|
  {
    if fs == [] then "" else InfoEntry(fs[0], m) + InfoEntries(fs[1..], m)
  }

  /** The full listing: every field but the name, in key order. */
  function AllInfo(m: Manual): string {
    InfoEntries(Fields[1..], m)
  }

  /** `get_info_for_selection` */
  function InfoForSelection(st: Store, cmd: string, selection: string): string {
    match Lookup(st, cmd)
    case None => "File not found: " + InfoPath(cmd)
    case Some(m) =>
      if selection == ShowAll then AllInfo(m)
      else if selection == "Show Description" then "Command Description: " + m.description
      else if selection == "Show Version" then "Command Version: " + m.version
      else if selection == "Show Example" then "Command Example: " + m.example
      else if selection == "Show Related Commands" then "Command Related Commands: " + m.related
      else if selection == "Show Online Documentation Links" then "Command Online Documentation Links: " + m.docLink
      else if selection == "Show Recommended Commands" then "Command Recommended Commands: " + m.recommended
      else "Invalid selection: " + selection
  }

  /** For an ordinary name the lookup reads the very file `create_xml` wrote. */
  lemma InfoPathAgrees(cmd: string)
    ensures !StartsWith(cmd, "/") ==> InfoPath(cmd) == ManualPath(cmd)
  {
    ManualPathShape(cmd);
  }

  /** Each single-field selection shows its title and that field of the stored record. */
  lemma SingleSelectionShows(st: Store, cmd: string, i: nat)
    requires i < |SingleSelections| && Lookup(st, cmd).Some?
    ensures InfoForSelection(st, cmd, SingleSelections[i].0)
      == SingleSelections[i].1 + ": " + Get(Lookup(st, cmd).value, SingleSelections[i].2)
  {
  }

  lemma InfoEntriesSix(fs: seq<Field>, m: Manual)
    requires |fs| == 6
    ensures InfoEntries(fs, m) == InfoEntry(fs[0], m) + (InfoEntry(fs[1], m) + (InfoEntry(fs[2], m)
      + (InfoEntry(fs[3], m) + (InfoEntry(fs[4], m) + InfoEntry(fs[5], m)))))
  {
    var e0, e1, e2, e3, e4, e5 :=
      InfoEntry(fs[0], m), InfoEntry(fs[1], m), InfoEntry(fs[2], m),
      InfoEntry(fs[3], m), InfoEntry(fs[4], m), InfoEntry(fs[5], m);
    assert fs[5..][1..] == [];
    assert InfoEntries(fs[5..], m) == e5 + InfoEntries([], m) == e5;
    assert fs[4..][1..] == fs[5..];
    assert InfoEntries(fs[4..], m) == e4 + e5;
    assert fs[3..][1..] == fs[4..];
    assert InfoEntries(fs[3..], m) == e3 + (e4 + e5);
    assert fs[2..][1..] == fs[3..];
    assert InfoEntries(fs[2..], m) == e2 + (e3 + (e4 + e5));
    assert fs[1..][1..] == fs[2..];
    assert InfoEntries(fs[1..], m) == e1 + (e2 + (e3 + (e4 + e5)));
    assert InfoEntries(fs, m) == e0 + (e1 + (e2 + (e3 + (e4 + e5))));
  }

  /** The listing is the entries of the six non-name fields, in key order. */
  lemma AllInfoEntries(m: Manual)
    ensures AllInfo(m) == InfoEntry(DescriptionField, m) + (InfoEntry(VersionField, m)
      + (InfoEntry(ExampleField, m) + (InfoEntry(RelatedField, m)
      + (InfoEntry(LinkField, m) + InfoEntry(RecommendedField, m)))))
  {
    InfoEntriesSix(Fields[1..], m);
  }

  /** `Show All Info` on a stored record answers with those six entries. */
  lemma ShowAllEntries(st: Store, cmd: string)
    requires Lookup(st, cmd).Some?
    ensures var m := Lookup(st, cmd).value;
      InfoForSelection(st, cmd, ShowAll) == InfoEntry(DescriptionField, m) + (InfoEntry(VersionField, m)
      + (InfoEntry(ExampleField, m) + (InfoEntry(RelatedField, m)
      + (InfoEntry(LinkField, m) + InfoEntry(RecommendedField, m)))))
  {
    AllInfoEntries(Lookup(st, cmd).value);
  }

  predicate IsSelection(selection: string) {
    selection == ShowAll || exists i :: 0 <= i < |SingleSelections| && SingleSelections[i].0 == selection
  }

  /** A missing file is reported with the path that was read. */
  lemma SelectionMissing(st: Store, cmd: string, selection: string)
    requires Lookup(st, cmd).None?
    ensures InfoForSelection(st, cmd, selection) == "File not found: " + InfoPath(cmd)
  {
  }

  /** Any label outside the seven is answered as invalid. */
  lemma InvalidSelection(st: Store, cmd: string, selection: string)
    requires Lookup(st, cmd).Some? && !IsSelection(selection)
    ensures InfoForSelection(st, cmd, selection) == "Invalid selection: " + selection
  {
    assert SingleSelections[0].0 == "Show Description";
    assert SingleSelections[1].0 == "Show Version";
    assert SingleSelections[2].0 == "Show Example";
    assert SingleSelections[3].0 == "Show Related Commands";
    assert SingleSelections[4].0 == "Show Online Documentation Links";
    assert SingleSelections[5].0 == "Show Recommended Commands";
  }

  /** Every answer to one of the seven labels opens with a capital C. */
  lemma ValidSelectionHead(st: Store, cmd: string, selection: string)
    requires Lookup(st, cmd).Some? && IsSelection(selection)
    ensures |InfoForSelection(st, cmd, selection)| > 0 && InfoForSelection(st, cmd, selection)[0] == 'C'
  {
    var m := Lookup(st, cmd).value;
    if selection == ShowAll {
      AllInfoEntries(m);
      var d := InfoEntry(DescriptionField, m);
      assert d[0] == 'C';
    } else {
      var i :| 0 <= i < |SingleSelections| && SingleSelections[i].0 == selection;
      SingleSelectionShows(st, cmd, i);
      assert SingleSelections[i].1[0] == 'C';
    }
  }

  /**
   For a stored record the answer is an invalid-selection message exactly
   when the label is none of the seven the interface offers.
   */
  lemma SelectionValidIff(st: Store, cmd: string, selection: string)
    requires Lookup(st, cmd).Some?
    ensures StartsWith(InfoForSelection(st, cmd, selection), "Invalid selection: ") <==> !IsSelection(selection)
  {
    if IsSelection(selection) {
      ValidSelectionHead(st, cmd, selection);
    } else {
      InvalidSelection(st, cmd, selection);
    }
  }

  // ---------------------------------------------------------------------
  // One command, end to end
  //
  // The input file holds the single line `pwd`. The lemmas below take the
  // command name as a parameter `cmd` that their precondition pins to "pwd",
  // rather than writing the literal: with the literal, the verifier unfolds
  // every function applied to the constant string and the proofs grow too
  // large.

  /** The record the `pwd` scenario expects, for the command `cmd` (which is `pwd`). */
  function PwdRecord(cmd: string, host: Host): Manual {
    Manual(cmd, "Print current directory", "1.0", cmd,
      RelatedCommands(cmd, host), DocLink(cmd), "cd, ls, echo")
  }

  lemma PwdInput()
    ensures ReadCommands(Some("pwd\n"), "input_commands.txt") == Ok(["pwd"])
  {
    assert Unlines(["pwd"]) == "pwd\n";
    assert Trimmed("pwd");
    ReadCommandsRoundTrip(["pwd"], "input_commands.txt");
  }

  lemma PwdStatic(cmd: string)
    requires cmd == "pwd"
    ensures Example(cmd) == cmd && Recommended(cmd) == "cd, ls, echo"
  {
    assert RecommendTable[cmd] == ["cd", "ls", "echo"];
    assert Join(["echo"], ", ") == "echo";
    assert Join(["ls", "echo"], ", ") == "ls" + ", " + "echo" by {
      assert ["ls", "echo"][1..] == ["echo"];
    }
    assert Join(["cd", "ls", "echo"], ", ") == "cd" + ", " + ("ls" + ", " + "echo") by {
      assert ["cd", "ls", "echo"][1..] == ["ls", "echo"];
    }
  }

  /** A command whose two probes answer is built into the record they determine. */
  lemma BuildFrom(cmd: string, probe: string -> Host, d: string, v: string)
    requires CommandDescription(cmd, probe(cmd)) == Ok(d) && VersionHistory(probe(cmd)) == Ok(v)
    ensures Builder(probe)(cmd) == Ok(Manual(cmd, d, v, Example(cmd), RelatedCommands(cmd, probe(cmd)),
                                             DocLink(cmd), Recommended(cmd)))
  {
    AssembleOutcome(cmd, CommandDescription(cmd, probe(cmd)), VersionHistory(probe(cmd)), RelatedCommands(cmd, probe(cmd)));
  }

  /** A single command whose stored record equals the rebuilt one verifies. */
  lemma VerifyOne(st: Store, build: string -> Result<Manual, ProbeError>, cmd: string, m: Manual)
    requires Lookup(st, cmd) == Some(m) && build(cmd) == Ok(m) && m.name == cmd
    ensures VerifyEach(st, build, [cmd]) == Ok([Verified(cmd)])
  {
    VerifiedIff(m, m);
    assert [cmd][1..] == [];
    assert VerifyEach(st, build, []) == Ok([]);
    assert ReadExisting(st, cmd) == Found(m);
    assert VerifyEach(st, build, [cmd]) == Ok([CompareContent(Found(m), m)] + []);
    assert CompareContent(Found(m), m) == Verified(cmd);
    assert [Verified(cmd)] + [] == [Verified(cmd)];
  }

  /** A one-line input whose command builds is generated into a one-record save. */
  lemma GenerateOne(content: Option<string>, inputFile: string, st: Store, probe: string -> Host, cmd: string, m: Manual)
    requires ReadCommands(content, inputFile) == Ok([cmd]) && Builder(probe)(cmd) == Ok(m)
    ensures GenerateManuals(content, inputFile, st, probe) == (Save(st, m), Generated([cmd]))
  {
    assert [cmd][1..] == [];
    assert GenerateAll(st, Builder(probe), [cmd]) == GenerateAll(Save(st, m), Builder(probe), []);
  }

  /**
   An input file naming `pwd`, a host whose probes answer with a
   description and a version, and an empty working directory: generation
   stores the expected record and an immediate verification confirms it.
   */
  lemma PwdScenario(cmd: string, probe: string -> Host)
    requires cmd == "pwd"
    requires CommandDescription(cmd, probe(cmd)) == Ok("Print current directory")
    requires VersionHistory(probe(cmd)) == Ok("1.0")
    ensures var (st', outcome) := GenerateManuals(Some("pwd\n"), "input_commands.txt", Store(false, map[]), probe);
      && outcome == Generated([cmd])
      && Lookup(st', cmd) == Some(PwdRecord(cmd, probe(cmd)))
      && PwdRecord(cmd, probe(cmd)).example == "pwd"
      && PwdRecord(cmd, probe(cmd)).docLink == "https://linux.die.net/man/1/pwd"
      && VerifyManuals(st', probe, [cmd]) == Ok(["\npwd: verified successfully"])
  {
    var m := PwdRecord(cmd, probe(cmd));
    var st := Store(false, map[]);
    PwdInput();
    PwdStatic(cmd);
    BuildFrom(cmd, probe, "Print current directory", "1.0");
    GenerateOne(Some("pwd\n"), "input_commands.txt", st, probe, cmd, m);
    VerifyOne(Save(st, m), Builder(probe), cmd, m);
    PwdVerifiedText(cmd);
    PwdLinkText(cmd);
  }

  lemma PwdLinkText(cmd: string)
    requires cmd == "pwd"
    ensures DocLink(cmd) == "https://linux.die.net/man/1/pwd"
  {
    assert DocLink("pwd") == "https://linux.die.net/man/1/pwd";
  }

  lemma PwdVerifiedText(cmd: string)
    requires cmd == "pwd"
    ensures Verified(cmd) == "\npwd: verified successfully"
  {
    assert Verified("pwd") == "\npwd: verified successfully";
  }
}
